=== FILE: README.md ===
# MasajesLG appointment book — a Dafny model

MasajesLG is a single-user Android appointment book for a massage practice.
It stores three tables: clients, services (name, duration in minutes, price,
active flag) and appointments (client, service, start, end, status, notes).
Its one business rule is that no two non-canceled appointments overlap in
time. `create` and `update` check that rule with a count query before they
write. The app also schedules a local reminder before each appointment,
draws a month calendar with per-day badges, and builds a WhatsApp reminder
link for each row.

This project models that core:

- the Room DAO queries, as functions over `map<int, Appointment>`
  (`AppointmentDao`);
- the database, as a class whose write methods change one table each
  (`Store.Db`);
- the three repositories (`AppointmentRepository`, `ClientRepository`,
  `ServiceRepository`);
- the WorkManager reminder scheduler, as a class over the map of unique work
  names (`ReminderScheduler.WorkQueue`), and the reminder worker
  (`ReminderWorker`);
- the WhatsApp link (`Intents`);
- the calendar arithmetic and row texts (`CalendarScreen`);
- the three view models, as classes that append their snackbar messages to a
  log (`AppointmentsUi`, `ClientsUi`, `ServicesUi`).

Kotlin text functions are written out in `Text`:

- `trim` uses the JVM whitespace set;
- `%0Nd` formatting and `toString` of numbers are proved to parse back;
- `lowercase` covers ASCII letters only.

A store exception is modelled as a `fault: Option<Fault>` argument of every
write; a `Fault` carries its message and whether its class is
`IllegalStateException` (a write on an already-closed database throws one). A
failed write changes nothing. The clients and services view models show
"Error al …: " followed by the exception's message (or "desconocido"). The
appointments view model shows fixed texts instead, chosen by the exception's
class: in `create` and `update` every `IllegalStateException`, the overlap
guard's refusal or one thrown by the store, shows the overlap message, and any
other failure "Error al crear turno" or "Error al actualizar turno"; `delete`
and `setStatus` show "Error al eliminar turno" and "Error al cambiar estado"
for every failure. The overlap invariant `NoOverlaps` is proved to be preserved by
`create`, `update` and `delete`. It is also proved that `setStatus`, which
performs no check, can break it.

Some behaviour one might expect is not what the code does:

- `setStatus` accepts any status string. It does not restrict transitions
  from pending to done or canceled, and it can revive a canceled row into a
  slot that has since been taken (`AppointmentDao.StatusUpdateCanBreakNoOverlaps`).
- Nothing validates a blank name, a non-positive duration or a negative
  price. The repositories write what they are given (names trimmed, service
  names not).
- `AppointmentsViewModel.create` looks up the service outside its
  `runCatching`. An unknown or inactive service therefore escapes as an
  uncaught `NoSuchElementException` and shows no message.
- `AppointmentsViewModel.update` looks it up inside, so the same case shows
  "Error al actualizar turno".

## Model

| member | source | states |
|---|---|---|
| Text.TrimOpt | app/src/main/java/com/example/masajeslg/data/ClientRepository.kt:8 | `?.trim()`: null stays null; a present string becomes its trim |
| Text.Trim | app/src/main/java/com/example/masajeslg/data/ClientRepository.kt:8 | the result is the input with exactly its leading and trailing JVM whitespace removed: it starts and ends with non-whitespace, sits contiguously inside the input, and everything outside it is whitespace |
| Text.TrimIdempotent | app/src/main/java/com/example/masajeslg/data/ClientRepository.kt:13 | trimming an already trimmed name, phone or note changes nothing |
| Text.IntToDecimalInjective | app/src/main/java/com/example/masajeslg/work/ReminderScheduler.kt:12 | distinct `Long`s print as distinct decimal strings |
| Text.NatToDecimalRoundTrip | app/src/main/java/com/example/masajeslg/ui/CalendarScreen.kt:310 | `toString()` of a non-negative count parses back to the count |
| Text.ZeroPaddedRoundTrip | app/src/main/java/com/example/masajeslg/work/ReminderWorker.kt:29-30 | `%0Nd` of a non-negative number parses back to the number for any width |
| Text.FixedWidth | app/src/main/java/com/example/masajeslg/work/ReminderWorker.kt:29-30 | `%0Nd` of a number below 10^N has exactly N characters |
| Text.ClockTextRoundTrip | app/src/main/java/com/example/masajeslg/work/ReminderWorker.kt:29 | `%02d:%02d` of a valid hour and minute is five characters, digits around a ':' at index 2, and the two fields parse back to the hour and minute |
| Text.DateTextRoundTrip | app/src/main/java/com/example/masajeslg/work/ReminderWorker.kt:30 | `%02d/%02d/%04d` of a valid date is ten characters with '/' at 2 and 5, and the three fields parse back to day, month and year |
| Text.Lowercase | app/src/main/java/com/example/masajeslg/ui/CalendarScreen.kt:331 | same length; each character lower-cased, letters A-Z shifted to a-z and everything else kept |
| AppointmentDao.CountOverlaps | app/src/main/java/com/example/masajeslg/data/AppointmentDAO.kt:11-18 | at most the number of rows, and zero exactly when no row is both non-canceled and strictly overlapping `(start, end)` |
| AppointmentDao.AdjacentRowNotCounted | app/src/main/java/com/example/masajeslg/data/AppointmentDAO.kt:14 | a row ending at `start` or starting at `end` does not change the overlap count |
| AppointmentDao.CountOverlapsExcluding | app/src/main/java/com/example/masajeslg/data/AppointmentDAO.kt:20-27 | the same test over every row except `id`: zero exactly when no other row overlaps, and at most one below the plain count |
| AppointmentDao.ExcludingOneRow | app/src/main/java/com/example/masajeslg/data/AppointmentDAO.kt:20-27 | leaving row `id` out lowers the overlap count by zero or one |
| AppointmentDao.GetById | app/src/main/java/com/example/masajeslg/data/AppointmentDAO.kt:162-163 | a row exactly when the key is stored, and that row carries the key |
| AppointmentDao.CountReferencing | app/src/main/java/com/example/masajeslg/data/AppointmentDAO.kt:61-65 | `countByClient` and `countByService`: at most the number of rows, and zero exactly when no row of any status holds the key in that column |
| AppointmentDao.Inserted | app/src/main/java/com/example/masajeslg/data/AppointmentDAO.kt:55-56 | one more row, under the fresh key, carrying that key; every existing row unchanged |
| AppointmentDao.Updated | app/src/main/java/com/example/masajeslg/data/AppointmentDAO.kt:29-43 | same keys; row `id` gets the five new columns and keeps its id and status; other rows unchanged; no-op when `id` is absent |
| AppointmentDao.StatusUpdated | app/src/main/java/com/example/masajeslg/data/AppointmentDAO.kt:58-59 | same keys; only the status of row `id` changes; no-op when absent |
| AppointmentDao.Deleted | app/src/main/java/com/example/masajeslg/data/AppointmentDAO.kt:45-46 | exactly key `id` removed; every remaining row unchanged |
| AppointmentDao.InsertKeepsNoOverlaps | app/src/main/java/com/example/masajeslg/data/AppointmentRepository.kt:64-76 | inserting a row the overlap count lets through keeps no two non-canceled rows overlapping |
| AppointmentDao.UpdateKeepsNoOverlaps | app/src/main/java/com/example/masajeslg/data/AppointmentRepository.kt:91-101 | rewriting a row the excluding count lets through keeps no two non-canceled rows overlapping |
| AppointmentDao.ResaveInOwnSlotPasses | app/src/main/java/com/example/masajeslg/data/AppointmentRepository.kt:91-93 | in a table without overlaps, a non-canceled row saved again in its own slot passes the excluding check |
| AppointmentDao.CancelFreesSlot | app/src/main/java/com/example/masajeslg/data/AppointmentDAO.kt:15 | after canceling row `id`, the plain count equals the count that excluded `id` before |
| AppointmentDao.StatusUpdateCanBreakNoOverlaps | app/src/main/java/com/example/masajeslg/data/AppointmentRepository.kt:108-109 | a table without overlaps in which reviving a canceled row to pending creates an overlap |
| AppointmentDao.OneHourScenario | app/src/main/java/com/example/masajeslg/data/AppointmentRepository.kt:63-66 | a 60-minute booking at 10:00 clashes with 10:30-11:30 and not with 11:00-12:00 |
| AppointmentDao.SortByStart | app/src/main/java/com/example/masajeslg/data/AppointmentDAO.kt:48 | `ORDER BY startAt ASC`: ascending by start and a permutation of the input |
| AppointmentDao.SortKeepsMembers | app/src/main/java/com/example/masajeslg/data/AppointmentDAO.kt:48 | sorting neither adds nor drops a row |
| AppointmentDao.GetBetween | app/src/main/java/com/example/masajeslg/data/AppointmentDAO.kt:48-49 | ascending by start; exactly the stored rows with `start <= startAt <= end`, each once |
| AppointmentDao.UiRow | app/src/main/java/com/example/masajeslg/data/AppointmentDAO.kt:67-75 | the row with its client's name and phone; service name and price present exactly when the service exists |
| AppointmentDao.Kept | app/src/main/java/com/example/masajeslg/data/AppointmentDAO.kt:73-75 | the kept rows come from the input and each has its client (and, for an inner join, its service) |
| AppointmentDao.KeptComplete | app/src/main/java/com/example/masajeslg/data/AppointmentDAO.kt:73-75 | no row whose client (and, for an inner join, service) exists is dropped |
| AppointmentDao.KeptSorted | app/src/main/java/com/example/masajeslg/data/AppointmentDAO.kt:77 | the join keeps the rows' order, so rows sorted by start stay sorted |
| AppointmentDao.JoinFacts | app/src/main/java/com/example/masajeslg/data/AppointmentDAO.kt:67-79 | the join returns the projection of exactly the rows it keeps, none added, none lost, in order |
| AppointmentDao.GetBetweenUi | app/src/main/java/com/example/masajeslg/data/AppointmentDAO.kt:67-79 | inner joins: one row per stored in-range appointment whose client and service both exist (the length is the number of such keys), each projected with its client's and service's columns, none other, ascending by start |
| AppointmentDao.GetDayUi | app/src/main/java/com/example/masajeslg/data/AppointmentDAO.kt:132-147 | client inner join, service left join: one row per stored in-range appointment whose client exists (the length is the number of such keys), the service columns null exactly when the service is missing, none other, ascending by start |
| AppointmentDao.KeptAll | app/src/main/java/com/example/masajeslg/data/AppointmentDAO.kt:73-75 | a list whose every row has its client (and, for an inner join, its service) passes through the join whole |
| AppointmentDao.JoinBetween | app/src/main/java/com/example/masajeslg/data/AppointmentDAO.kt:67-79 | the range query over the joined tables: as many rows as stored in-range appointments the join keeps, each of them and no other, ascending by start |
| AppointmentDao.AddDay | app/src/main/java/com/example/masajeslg/data/AppointmentDAO.kt:119-120 | adding a row on day `d` keeps the groups ascending by day and positive |
| AppointmentDao.AddDayCounts | app/src/main/java/com/example/masajeslg/data/AppointmentDAO.kt:115-120 | adding a row on day `d` raises the total and the count of `d`, and of no other day, by one |
| AppointmentDao.Group | app/src/main/java/com/example/masajeslg/data/AppointmentDAO.kt:113-121 | groups are ascending by day, positive, add up to the number of rows, and count the rows of each day |
| AppointmentDao.DayCountsBetween | app/src/main/java/com/example/masajeslg/data/AppointmentDAO.kt:113-126 | one positive group per day with matching rows, ascending; counts add up to the matching rows; a status filters when given |
| AppointmentDao.CountOfListedDay | app/src/main/java/com/example/masajeslg/data/AppointmentDAO.kt:119-120 | in ascending groups, the count looked up for a listed day is that group's count |
| Store.Db.constructor | app/src/main/java/com/example/masajeslg/data/Appointment.kt:8 | three empty tables with their key counters at 1 |
| Store.Db.InsertAppointment | app/src/main/java/com/example/masajeslg/data/AppointmentDAO.kt:55-56 | returns the fresh key, the table becomes `Inserted(old, key, a)`, the counter moves past it, other tables unchanged |
| Store.Db.UpdateAppointment | app/src/main/java/com/example/masajeslg/data/AppointmentDAO.kt:29-43 | the table becomes `Updated(old, ...)`; other tables unchanged |
| Store.Db.UpdateStatus | app/src/main/java/com/example/masajeslg/data/AppointmentDAO.kt:58-59 | the table becomes `StatusUpdated(old, id, status)`; other tables unchanged |
| Store.Db.DeleteAppointment | app/src/main/java/com/example/masajeslg/data/AppointmentDAO.kt:45-46 | the table becomes `Deleted(old, id)`; other tables unchanged |
| Store.Db.InsertClient | app/src/main/java/com/example/masajeslg/data/ClienteDAO.kt:18-19 | one client under the fresh key; other clients and tables unchanged |
| Store.Db.UpdateClient | app/src/main/java/com/example/masajeslg/data/ClienteDAO.kt:21-22 | replaces the client with the same key, no-op when absent |
| Store.Db.DeleteClient | app/src/main/java/com/example/masajeslg/data/ClienteDAO.kt:24-25 | removes exactly that key |
| Store.Db.InsertService | app/src/main/java/com/example/masajeslg/data/ServiceDAO.kt:17 | one service under the fresh key; other services and tables unchanged |
| Store.Db.UpdateService | app/src/main/java/com/example/masajeslg/data/ServiceDAO.kt:18 | replaces the service with the same key, no-op when absent |
| Store.Db.SetServiceActive | app/src/main/java/com/example/masajeslg/data/ServiceDAO.kt:20-21 | changes only the active flag of that service, no-op when absent |
| Store.Db.DeleteService | app/src/main/java/com/example/masajeslg/data/ServiceDAO.kt:23-24 | removes exactly that key |
| AppointmentRepository.EndAt | app/src/main/java/com/example/masajeslg/data/AppointmentRepository.kt:63 | a positive duration ends strictly after the start; a zero duration ends at the start |
| AppointmentRepository.ActiveService | app/src/main/java/com/example/masajeslg/data/AppointmentRepository.kt:88 | found exactly when the key is stored and active, and then it is that row |
| AppointmentRepository.Create | app/src/main/java/com/example/masajeslg/data/AppointmentRepository.kt:57-77 | overlap: `IllegalState` with the overlap message, nothing written; store failure: nothing written; else returns the fresh key of one new pending row with the given client and service, `endAt = startAt + minutes * 60000` and trimmed notes; keeps no-overlap |
| AppointmentRepository.Update | app/src/main/java/com/example/masajeslg/data/AppointmentRepository.kt:80-102 | inactive or missing service: `NoSuchElement`, nothing written; overlap with another row: `IllegalState`; else row `id` rewritten with the recomputed end and trimmed notes, status kept; keeps no-overlap |
| AppointmentRepository.Delete | app/src/main/java/com/example/masajeslg/data/AppointmentRepository.kt:105 | no check: the table becomes `Deleted(old, id)` unless the store fails |
| AppointmentRepository.SetStatus | app/src/main/java/com/example/masajeslg/data/AppointmentRepository.kt:108-109 | no check: the table becomes `StatusUpdated(old, id, status)` for any string unless the store fails |
| ClientRepository.Add | app/src/main/java/com/example/masajeslg/data/ClientRepository.kt:7-9 | one client under the fresh key with trimmed name, phone and notes (null kept), created at `now`; others unchanged |
| ClientRepository.Update | app/src/main/java/com/example/masajeslg/data/ClientRepository.kt:11-14 | missing id: no-op; else name, phone and notes replaced by their trims, key and creation time kept, other clients unchanged |
| ClientRepository.Delete | app/src/main/java/com/example/masajeslg/data/ClientRepository.kt:16-18 | removes exactly that client |
| ServiceRepository.Active | app/src/main/java/com/example/masajeslg/data/ServiceRepository.kt:5 | exactly the stored services whose flag is active, unchanged |
| ServiceRepository.Add | app/src/main/java/com/example/masajeslg/data/ServiceRepository.kt:8-10 | one active service under the fresh key, name not trimmed |
| ServiceRepository.Update | app/src/main/java/com/example/masajeslg/data/ServiceRepository.kt:12-15 | missing id: no-op; else name, duration and price replaced, key and active flag kept |
| ServiceRepository.SetActive | app/src/main/java/com/example/masajeslg/data/ServiceRepository.kt:17-19 | only the active flag of that service changes |
| ServiceRepository.Delete | app/src/main/java/com/example/masajeslg/data/ServiceRepository.kt:21-23 | removes exactly that service |
| ServiceRepository.DeactivateRemovesFromActive | app/src/main/java/com/example/masajeslg/data/ServiceRepository.kt:17-19 | deactivating takes exactly that service off the active list |
| ServiceRepository.ReactivateRestoresActive | app/src/main/java/com/example/masajeslg/data/ServiceRepository.kt:17-19 | reactivating puts that service back on the active list |
| ReminderScheduler.UniqueName | app/src/main/java/com/example/masajeslg/work/ReminderScheduler.kt:12 | the prefix `appointment_reminder_` followed by the id's decimal text |
| ReminderScheduler.UniqueNameInjective | app/src/main/java/com/example/masajeslg/work/ReminderScheduler.kt:12 | distinct appointment ids give distinct unique-work names |
| ReminderScheduler.TriggerAt | app/src/main/java/com/example/masajeslg/work/ReminderScheduler.kt:33 | `startAt - minutesBefore * 60000`, before the start for a positive lead |
| ReminderScheduler.Decide | app/src/main/java/com/example/masajeslg/work/ReminderScheduler.kt:28-40 | cancel exactly when `startAt <= now`; else a delay of at least 1 ms that reaches the trigger instant, or 5000 ms when that instant is not in the future |
| ReminderScheduler.ClampIsInactive | app/src/main/java/com/example/masajeslg/work/ReminderScheduler.kt:37-40 | the `max(1, ...)` clamp never changes the effective delay |
| ReminderScheduler.FiringTime | app/src/main/java/com/example/masajeslg/work/ReminderScheduler.kt:33-40 | a normal-path reminder fires no later than the start; a fallback one 5 s after `now`, after the start when under 5 s remain |
| ReminderScheduler.WorkQueue.constructor | app/src/main/java/com/example/masajeslg/work/ReminderScheduler.kt:44-48 | an empty, valid queue |
| ReminderScheduler.WorkQueue.PendingFor | app/src/main/java/com/example/masajeslg/work/ReminderScheduler.kt:44-48 | present exactly when the appointment's unique name is queued, and then it is that appointment's request |
| ReminderScheduler.WorkQueue.Cancel | app/src/main/java/com/example/masajeslg/work/ReminderScheduler.kt:52-54 | removes the appointment's unique name; every other appointment's reminder unchanged |
| ReminderScheduler.WorkQueue.Schedule | app/src/main/java/com/example/masajeslg/work/ReminderScheduler.kt:19-49 | started appointment: its reminder removed; otherwise replaced by one request with the decided delay; pending exactly when `now < startAt`; other appointments untouched |
| ReminderScheduler.AtMostOnePerAppointment | app/src/main/java/com/example/masajeslg/work/ReminderScheduler.kt:44-48 | a valid queue holds at most one request per appointment |
| ReminderWorker.InputId | app/src/main/java/com/example/masajeslg/work/ReminderWorker.kt:20 | a missing input reads as -1 |
| ReminderWorker.ToInt32 | app/src/main/java/com/example/masajeslg/work/ReminderWorker.kt:40 | `Long.toInt()`: in Int range, congruent modulo 2^32, identity inside the range |
| ReminderWorker.NotificationIdsCollide | app/src/main/java/com/example/masajeslg/work/ReminderWorker.kt:40 | ids 1 and 2^32 + 1 get the same notification id |
| ReminderWorker.ReminderText | app/src/main/java/com/example/masajeslg/work/ReminderWorker.kt:33-38 | "Turno ", then "de <service> " only with a service, "con <client> " only with a client, then "hoy <date> a las <time>." |
| ReminderWorker.DoWork | app/src/main/java/com/example/masajeslg/work/ReminderWorker.kt:19-47 | always success; posts nothing for an id <= 0 or without a row; else one notification under `toInt()` of the id with the fixed title and the reminder text |
| Intents.SanitizePhone | app/src/main/java/com/example/masajeslg/util/Intents.kt:10 | no longer than the input and made only of digits and '+' |
| Intents.SanitizeConcat | app/src/main/java/com/example/masajeslg/util/Intents.kt:10 | filtering distributes over concatenation, so kept characters keep their order |
| Intents.SanitizeChar | app/src/main/java/com/example/masajeslg/util/Intents.kt:10 | one character is kept exactly when it is a digit or '+' |
| Intents.SanitizeKeepsClean | app/src/main/java/com/example/masajeslg/util/Intents.kt:10 | a phone of digits and '+' passes unchanged |
| Intents.SanitizeIdempotent | app/src/main/java/com/example/masajeslg/util/Intents.kt:10 | filtering twice is filtering once |
| Intents.OpenWhatsApp | app/src/main/java/com/example/masajeslg/util/Intents.kt:9-14 | starts with `https://wa.me/` and has the length of prefix, phone, `?text=` and encoded message together |
| Intents.UrlSplitsAtTextParam | app/src/main/java/com/example/masajeslg/util/Intents.kt:10-11 | splitting the link at its first '?' gives back prefix plus phone and `text=` plus the encoded message |
| CalendarScreen.LengthOfMonth | app/src/main/java/com/example/masajeslg/ui/CalendarScreen.kt:239 | 28 to 31 days, 28 exactly for February of a non-leap year |
| CalendarScreen.FirstIndex | app/src/main/java/com/example/masajeslg/ui/CalendarScreen.kt:238 | Monday (1) maps to column 0 and Sunday (7) to column 6 |
| CalendarScreen.Rows | app/src/main/java/com/example/masajeslg/ui/CalendarScreen.kt:240-241 | the fewest rows of seven that hold all cells: `rows*7 >= total > (rows-1)*7` |
| CalendarScreen.RowsBetweenFourAndSix | app/src/main/java/com/example/masajeslg/ui/CalendarScreen.kt:240-241 | a month of 28-31 days needs 4 to 6 rows |
| CalendarScreen.GridExtremes | app/src/main/java/com/example/masajeslg/ui/CalendarScreen.kt:238-241 | a 28-day month starting Monday needs 4 rows; a 31-day month starting Sunday needs 6 |
| CalendarScreen.CountFor | app/src/main/java/com/example/masajeslg/ui/CalendarScreen.kt:259 | a date missing from the counts shows 0 |
| CalendarScreen.MonthGrid | app/src/main/java/com/example/masajeslg/ui/CalendarScreen.kt:231-273 | `7*rows` cells; cell `i` shows day `i - firstIndex + 1` with its count and selection when inside the month, and is blank otherwise |
| CalendarScreen.EachDayOnce | app/src/main/java/com/example/masajeslg/ui/CalendarScreen.kt:244-266 | each day of the month has its own cell with that date, and day numbers grow from cell to cell |
| CalendarScreen.Badge | app/src/main/java/com/example/masajeslg/ui/CalendarScreen.kt:301-319 | a badge exactly when count > 0; "9+" above nine; else one digit that parses back to the count |
| CalendarScreen.StatusLabel | app/src/main/java/com/example/masajeslg/ui/CalendarScreen.kt:371-378 | after lowercasing: pending/scheduled, done, canceled/cancelled, no_show/ausente map to their labels; anything else shows the raw status |
| CalendarScreen.StatusLabelIgnoresCase | app/src/main/java/com/example/masajeslg/ui/CalendarScreen.kt:331 | "DONE", "Done" and "done" all read "Realizado"; "Cancelled" and "canceled" read "Cancelado" |
| CalendarScreen.FormatHour | app/src/main/java/com/example/masajeslg/ui/CalendarScreen.kt:418-422 | for a valid local time: five characters, ':' at 2, digits elsewhere, fields parse back to hour and minute |
| CalendarScreen.RowWhatsAppLink | app/src/main/java/com/example/masajeslg/ui/CalendarScreen.kt:393-406 | disabled exactly for a null or blank phone; otherwise the link's phone part is the once-filtered phone, despite the second filter |
| AppointmentsUi.PlusMonths | app/src/main/java/com/example/masajeslg/ui/AppointmentsViewModel.kt:45-46 | a valid month whose month index moved by `n` |
| AppointmentsUi.PrevUndoesNext | app/src/main/java/com/example/masajeslg/ui/AppointmentsViewModel.kt:45-46 | `prevMonth` after `nextMonth` (and the reverse) gives back the month |
| AppointmentsUi.NextAfterDecember | app/src/main/java/com/example/masajeslg/ui/AppointmentsViewModel.kt:46 | December is followed by January of the next year |
| AppointmentsUi.StatusWord | app/src/main/java/com/example/masajeslg/ui/AppointmentsViewModel.kt:124 | "realizado" for done, "cancelado" for canceled, "pendiente" for any other string |
| AppointmentsUi.StatusWordMatchesRowLabel | app/src/main/java/com/example/masajeslg/ui/AppointmentsViewModel.kt:124 | for the three statuses the menu writes, the snackbar word is the row label lower-cased |
| AppointmentsUi.StatusWordIgnoresOtherStatuses | app/src/main/java/com/example/masajeslg/ui/AppointmentsViewModel.kt:121-124 | for "no_show" or "DONE" the snackbar says "pendiente" while the row says "Ausente" or "Realizado" |
| AppointmentsUi.FailureMessage | app/src/main/java/com/example/masajeslg/ui/AppointmentsViewModel.kt:71-73 | the overlap message for every `IllegalStateException`, the overlap guard's or a store fault of that class, and the action's own error text for any other error |
| AppointmentsUi.AppointmentsViewModel.constructor | app/src/main/java/com/example/masajeslg/ui/AppointmentsViewModel.kt:25-32 | no messages, today's month shown, today selected |
| AppointmentsUi.AppointmentsViewModel.PrevMonth | app/src/main/java/com/example/masajeslg/ui/AppointmentsViewModel.kt:45 | month index down by one; messages and selection unchanged |
| AppointmentsUi.AppointmentsViewModel.NextMonth | app/src/main/java/com/example/masajeslg/ui/AppointmentsViewModel.kt:46 | month index up by one; messages and selection unchanged |
| AppointmentsUi.AppointmentsViewModel.SelectDate | app/src/main/java/com/example/masajeslg/ui/AppointmentsViewModel.kt:47 | only the selected date changes |
| AppointmentsUi.AppointmentsViewModel.Create | app/src/main/java/com/example/masajeslg/ui/AppointmentsViewModel.kt:51-75 | unknown or inactive service: crashes with `NoSuchElement`, nothing else; overlap: the overlap message; store failure: the overlap message for an `IllegalStateException` fault, "Error al crear turno" otherwise; both with nothing changed; success: one new pending row and no other table or counter touched, "Turno creado", the reminder queue unchanged without a lead time and otherwise with exactly this appointment's entry replaced by one with the computed delay (or removed when the start is not in the future), calendar moved to the start's date; keeps no-overlap |
| AppointmentsUi.AppointmentsViewModel.CreateWith | app/src/main/java/com/example/masajeslg/ui/AppointmentsViewModel.kt:60-73 | the `runCatching` part of `create`: overlap gives the overlap message, a store failure the overlap message when the fault is an `IllegalStateException` and "Error al crear turno" otherwise, both with nothing changed; success one new pending row and no other table or counter touched, "Turno creado", the exact new reminder queue (as for `Create`) and the calendar date |
| AppointmentsUi.AppointmentsViewModel.Update | app/src/main/java/com/example/masajeslg/ui/AppointmentsViewModel.kt:78-102 | missing service: "Error al actualizar turno"; store failure: the overlap message when the fault is an `IllegalStateException`, "Error al actualizar turno" otherwise; overlap: the overlap message; success: row rewritten and no other table or counter touched, "Cambios guardados", the reminder queue unchanged without a lead time and otherwise with exactly this id's entry replaced with the computed delay (or removed for a past start), calendar moved; keeps no-overlap |
| AppointmentsUi.AppointmentsViewModel.Saved | app/src/main/java/com/example/masajeslg/ui/AppointmentsViewModel.kt:61-70 | one message; reminder replaced or cancelled as `schedule` decides, untouched without a lead time; month and date of the start selected |
| AppointmentsUi.AppointmentsViewModel.Delete | app/src/main/java/com/example/masajeslg/ui/AppointmentsViewModel.kt:104-114 | the reminder is cancelled even when the delete then fails; one message saying which |
| AppointmentsUi.AppointmentsViewModel.SetStatus | app/src/main/java/com/example/masajeslg/ui/AppointmentsViewModel.kt:116-129 | failure: "Error al cambiar estado", nothing changed; success: status written and no other table or counter touched, reminder cancelled exactly for "canceled" or "done", "Estado: <word>" |
| Entities.Error.MessageOrUnknown | app/src/main/java/com/example/masajeslg/ui/theme/ClientsViewModel.kt:30 | the exception's message, or "desconocido" when it has none |
| ClientsUi.GuardedDeleteKeepsClientsResolved | app/src/main/java/com/example/masajeslg/ui/theme/ClientsViewModel.kt:39-45 | deleting a client no appointment references keeps every appointment's client present |
| ClientsUi.UnguardedDeleteOrphans | app/src/main/java/com/example/masajeslg/ui/theme/ClientsViewModel.kt:39-42 | deleting a client that has appointments would leave one pointing at nothing |
| ClientsUi.ClientsViewModel.constructor | app/src/main/java/com/example/masajeslg/ui/theme/ClientsViewModel.kt:15-25 | no messages yet |
| ClientsUi.ClientsViewModel.Add | app/src/main/java/com/example/masajeslg/ui/theme/ClientsViewModel.kt:27-31 | exactly one message: "Cliente creado" with the trimmed client added, or "Error al crear: <message>" with nothing changed |
| ClientsUi.ClientsViewModel.Update | app/src/main/java/com/example/masajeslg/ui/theme/ClientsViewModel.kt:33-37 | exactly one message: "Cambios guardados" (also for a missing id) or "Error al editar: <message>" |
| ClientsUi.ClientsViewModel.Delete | app/src/main/java/com/example/masajeslg/ui/theme/ClientsViewModel.kt:39-48 | client with appointments of any status: refusal message, nothing changed; else "Cliente eliminado" with exactly that client removed, or the error message; keeps every appointment's client present |
| ServicesUi.GuardedDeleteKeepsServicesResolved | app/src/main/java/com/example/masajeslg/ui/ServicesViewModel.kt:38-44 | deleting a service no appointment uses keeps every appointment's service present |
| ServicesUi.ServicesViewModel.constructor | app/src/main/java/com/example/masajeslg/ui/ServicesViewModel.kt:15-24 | no messages yet |
| ServicesUi.ServicesViewModel.Services | app/src/main/java/com/example/masajeslg/ui/ServicesViewModel.kt:20 | exactly the active services |
| ServicesUi.ServicesViewModel.Add | app/src/main/java/com/example/masajeslg/ui/ServicesViewModel.kt:26-30 | exactly one message: "Servicio creado" with one active service added (and listed), or "Error al crear: <message>" |
| ServicesUi.ServicesViewModel.Update | app/src/main/java/com/example/masajeslg/ui/ServicesViewModel.kt:32-36 | exactly one message: "Cambios guardados" (also for a missing id) or "Error al editar: <message>" |
| ServicesUi.ServicesViewModel.Delete | app/src/main/java/com/example/masajeslg/ui/ServicesViewModel.kt:38-47 | service used by any appointment: refusal message, nothing changed; else "Servicio eliminado" with exactly that service removed, or the error message; keeps every appointment's service present |

## Left out

- Reads never fail. Only writes take a `fault`; a failing query is not modelled.
- The zone is the argument `zone`, so `Instant.atZone(ZoneId.systemDefault())` is not computed.
- The local day of an instant is the argument `dayOf`, so SQLite's `strftime(..., 'localtime')` grouping key is not computed.
- The weekday of a month's first day is the argument `firstDayOfWeek`.
- `ceil(totalCells / 7.0)` is modelled as integer ceiling division, which is exact for these small values.
- `Long` arithmetic is unbounded. `startAt + minutes * 60000` and the trigger time do not model 64-bit overflow. Only the `Long.toInt()` of the notification id is written out, as `ReminderWorker.ToInt32`.
- `Char.isDigit` in the phone filter and `lowercase()` in the status key cover ASCII only. Other Unicode digits and letters are not modelled.
- `String.format` prints digits in the default locale. `Text.ZeroPadded`, `Text.ClockText` and `Text.DateText` always print ASCII digits, so a locale with other digits is not modelled.
- Rows that tie on `startAt` are returned in key order. SQL leaves their order unspecified.
- `getAll` and `getActive` sort by name. The model returns the rows as a map, without that order.
- The `Flow` wrappers carry no logic of their own beyond the query they wrap and, for `getDayCountsForMonth`, `getDayUi` and `getMonthUi`, the zone-dependent day or month bounds they pass to it (`monthRangeMillis`, `startOfDayMillis`, `endOfDayMillis`, which depend on the zone as in the line on `zone` above), so they are not modelled:
  - `AppointmentRepository.getForDay`, `getDayCountsForMonth`, `getDayUi`, `getMonthUi` and `getUpcoming`;
  - the DAO's `getUpcoming`;
  - the view model's `dayCounts` and `appointmentsForSelectedDay` flows.
- `statsByDay`, `statsByService` and the statistics screen work on `Double` sums of prices. Floating point is not modelled.
- The plain `insert` of the DAO (the repository only calls `insertReturnId`) is not modelled.
- Snackbar messages go through a `MutableSharedFlow` with one buffer slot and `tryEmit`. The model keeps an unbounded log, so a message dropped on overflow is not modelled.
- Coroutines and the check-then-write race between two concurrent writers are not modelled. Each action runs to completion.
- `URLEncoder.encode` is the argument `encode`. Starting the WhatsApp activity, posting the notification and WorkManager's own timing are not modelled: the queue records the request and its initial delay.
- Status colours, the price formatting of a row and every composable's layout are not modelled.
- `AppointmentsUi.AppointmentsViewModel.Create`: the uncaught `NoSuchElementException` is returned as `crash`. In the app it escapes `viewModelScope.launch` to the thread's default handler, which ends the process.
- `ReminderWorker.DoWork`: the service is looked up among all services, active or not, as `ServiceDao.getById` does. Reading the system clock and the database handle are replaced by the arguments `zone` and `db`.

=== FILE: appointment_dao.dfy ===
/**
  The appointments table and the meaning of each query and write of the
  appointment DAO (app/.../data/AppointmentDAO.kt), as functions of the table.
  The table is a map from primary key to row. Queries that return a `Flow` are
  plain functions of the current table; the writes are the functions that the
  store's methods apply to it.
 */
module AppointmentDao {
  import opened Text
  import opened Entities
  import opened OrderedKeys

  type Table = map<int, Appointment>

  /** Every row is stored under its own primary key. */
  predicate Keyed(t: Table) {
    forall k | k in t :: t[k].id == k
  }

  // ---------------------------------------------------------------------------
  // countOverlaps / countOverlapsExcluding
  // ---------------------------------------------------------------------------

  /**
    The WHERE clause of the overlap queries: the row is not canceled and its
    interval meets the candidate `[start, end)` under strict inequalities.
   */
  predicate Counted(a: Appointment, start: int, end: int) {
    start < a.endAt && end > a.startAt && a.status != CANCELED
  }

  /** `countOverlaps(start, end)`. */
  function CountOverlaps(t: Table, start: int, end: int): (n: nat)
    ensures n <= |t|
    ensures n == 0 <==> forall k | k in t :: !Counted(t[k], start, end)
  {
    var ids := set k | k in t && Counted(t[k], start, end);
    KeySubsetCard(t, ids);
    assert ids == {} <==> forall k | k in t :: !Counted(t[k], start, end) by {
      if forall k | k in t :: !Counted(t[k], start, end) {
        assert forall x :: x !in ids;
      } else {
        var k :| k in t && Counted(t[k], start, end);
        assert k in ids;
      }
    }
    |ids|
  }

  /** A set of keys of `t` has at most `|t|` elements, and none exactly when it is empty. */
  lemma KeySubsetCard<V>(t: map<int, V>, ids: set<int>)
    requires ids <= t.Keys
    ensures |ids| <= |t|
    ensures |ids| == 0 <==> ids == {}
  {
    assert t.Keys == ids + (t.Keys - ids);
  }

  /** `countOverlapsExcluding(id, start, end)`: the same test over every row but row `id`. */
  function CountOverlapsExcluding(t: Table, id: int, start: int, end: int): (n: nat)
    ensures n <= CountOverlaps(t, start, end) <= n + 1
    ensures n == 0 <==> forall k | k in t && k != id :: !Counted(t[k], start, end)
  {
    ExcludingOneRow(t, id, start, end);
    CountOverlaps(t - {id}, start, end)
  }

  /** Leaving out one row lowers the overlap count by at most one. */
  lemma ExcludingOneRow(t: Table, id: int, start: int, end: int)
    ensures CountOverlaps(t - {id}, start, end) <= CountOverlaps(t, start, end) <= CountOverlaps(t - {id}, start, end) + 1
  {
    var all := set k | k in t && Counted(t[k], start, end);
    var rest := set k | k in t - {id} && Counted((t - {id})[k], start, end);
    assert rest == all - {id};
    if id in all {
      assert all == rest + {id};
    } else {
      assert all == rest;
    }
  }

  /**
    Back-to-back rows are not counted: a row that ends where the candidate starts,
    or starts where it ends, adds nothing to the count.
   */
  lemma AdjacentRowNotCounted(t: Table, k: int, start: int, end: int)
    requires k in t
    requires t[k].endAt == start || t[k].startAt == end
    ensures CountOverlaps(t, start, end) == CountOverlaps(t - {k}, start, end)
  {
    assert (set j | j in t && Counted(t[j], start, end))
        == (set j | j in t - {k} && Counted((t - {k})[j], start, end));
  }

  // ---------------------------------------------------------------------------
  // getById, countByClient, countByService
  // ---------------------------------------------------------------------------

  /** `getById(id)`: the row stored under `id`, or null. */
  function GetById(t: Table, id: int): (r: Option<Appointment>)
    ensures r.Some? <==> id in t
    ensures r.Some? && Keyed(t) ==> r.value.id == id && r.value in t.Values
  {
    if id in t then Some(t[id]) else None
  }

  /** The two reference columns of an appointment row. */
  datatype Column = ClientColumn | ServiceColumn

  /** The key a row holds in column `c`. */
  function Ref(a: Appointment, c: Column): int {
    if c.ClientColumn? then a.clientId else a.serviceId
  }

  /** `SELECT COUNT(*) ... WHERE <column> = :id`: rows of any status that hold `id` in column `c`. */
  function CountReferencing(t: Table, c: Column, id: int): (n: nat)
    ensures n <= |t|
    ensures n == 0 <==> forall k | k in t :: Ref(t[k], c) != id
  {
    var ids := set k | k in t && Ref(t[k], c) == id;
    KeySubsetCard(t, ids);
    assert ids == {} <==> forall k | k in t :: Ref(t[k], c) != id by {
      if forall k | k in t :: Ref(t[k], c) != id {
        assert forall x :: x !in ids;
      } else {
        var k :| k in t && Ref(t[k], c) == id;
        assert k in ids;
      }
    }
    |ids|
  }

  /** `countByClient(clientId)`. */
  function CountByClient(t: Table, clientId: int): nat {
    CountReferencing(t, ClientColumn, clientId)
  }

  /** `countByService(serviceId)`. */
  function CountByService(t: Table, serviceId: int): nat {
    CountReferencing(t, ServiceColumn, serviceId)
  }

  // ---------------------------------------------------------------------------
  // Writes: insertReturnId, update, updateStatus, delete
  // ---------------------------------------------------------------------------

  /** `insertReturnId(a)` with the generated key `id`: one new row, the others untouched. */
  function Inserted(t: Table, id: int, a: Appointment): (r: Table)
    requires id !in t
    ensures r.Keys == t.Keys + {id}
    ensures |r| == |t| + 1
    ensures r[id] == a.(id := id)
    ensures forall k | k in t :: r[k] == t[k]
  {
    t[id := a.(id := id)]
  }

  /**
    `update(id, clientId, serviceId, startAt, endAt, notes)`: rewrites those five
    columns of row `id`; its id and status and every other row are unchanged, and
    nothing happens when there is no such row.
   */
  function Updated(t: Table, id: int, clientId: int, serviceId: int, startAt: int, endAt: int, notes: Option<string>): (r: Table)
    ensures r.Keys == t.Keys
    ensures forall k | k in t && k != id :: r[k] == t[k]
    ensures id in t ==> r[id] == Appointment(t[id].id, clientId, serviceId, startAt, endAt, t[id].status, notes)
    ensures id !in t ==> r == t
  {
    if id in t then t[id := t[id].(clientId := clientId, serviceId := serviceId, startAt := startAt, endAt := endAt, notes := notes)]
    else t
  }

  /** `updateStatus(id, newStatus)`: changes only the status of row `id`. */
  function StatusUpdated(t: Table, id: int, status: string): (r: Table)
    ensures r.Keys == t.Keys
    ensures forall k | k in t && k != id :: r[k] == t[k]
    ensures id in t ==> r[id] == Appointment(t[id].id, t[id].clientId, t[id].serviceId, t[id].startAt, t[id].endAt, status, t[id].notes)
    ensures id !in t ==> r == t
  {
    if id in t then t[id := t[id].(status := status)] else t
  }

  /** `delete(id)`: removes only row `id`. */
  function Deleted(t: Table, id: int): (r: Table)
    ensures r.Keys == t.Keys - {id}
    ensures forall k | k in r :: r[k] == t[k]
    ensures id in t ==> |r| == |t| - 1
    ensures id !in t ==> r == t
  {
    t - {id}
  }

  // ---------------------------------------------------------------------------
  // The non-overlap invariant that create and update keep
  // ---------------------------------------------------------------------------

  /** Two rows, neither canceled, whose intervals intersect. */
  predicate Clash(a: Appointment, b: Appointment) {
    a.status != CANCELED && Counted(b, a.startAt, a.endAt)
  }

  /** No two distinct non-canceled rows overlap. */
  predicate NoOverlaps(t: Table) {
    forall i, j | i in t && j in t && i != j :: !Clash(t[i], t[j])
  }

  /** Inserting a row that the overlap count lets through keeps the invariant. */
  lemma InsertKeepsNoOverlaps(t: Table, id: int, a: Appointment)
    requires NoOverlaps(t) && id !in t
    requires CountOverlaps(t, a.startAt, a.endAt) == 0
    ensures NoOverlaps(Inserted(t, id, a))
  {
    var r := Inserted(t, id, a);
    forall i, j | i in r && j in r && i != j
      ensures !Clash(r[i], r[j])
    {
      if i == id {
        assert !Counted(t[j], a.startAt, a.endAt);
      } else if j == id {
        assert !Counted(t[i], a.startAt, a.endAt);
      }
    }
  }

  /** Rewriting a row that the excluding overlap count lets through keeps the invariant. */
  lemma UpdateKeepsNoOverlaps(t: Table, id: int, clientId: int, serviceId: int, startAt: int, endAt: int, notes: Option<string>)
    requires NoOverlaps(t)
    requires CountOverlapsExcluding(t, id, startAt, endAt) == 0
    ensures NoOverlaps(Updated(t, id, clientId, serviceId, startAt, endAt, notes))
  {
    var r := Updated(t, id, clientId, serviceId, startAt, endAt, notes);
    forall i, j | i in r && j in r && i != j
      ensures !Clash(r[i], r[j])
    {
      if i == id {
        assert !Counted(t[j], startAt, endAt);
      } else if j == id {
        assert !Counted(t[i], startAt, endAt);
      }
    }
  }

  /** A non-canceled row saved again in its own slot passes the excluding check. */
  lemma ResaveInOwnSlotPasses(t: Table, id: int)
    requires NoOverlaps(t) && id in t && t[id].status != CANCELED
    ensures CountOverlapsExcluding(t, id, t[id].startAt, t[id].endAt) == 0
  {
    forall k | k in t && k != id
      ensures !Counted(t[k], t[id].startAt, t[id].endAt)
    {
      assert !Clash(t[id], t[k]);
    }
  }

  /**
    Canceling a row frees its slot: afterwards the plain overlap count equals the
    count that excluded the row before.
   */
  lemma CancelFreesSlot(t: Table, id: int, start: int, end: int)
    ensures CountOverlaps(StatusUpdated(t, id, CANCELED), start, end) == CountOverlapsExcluding(t, id, start, end)
  {
    var r := StatusUpdated(t, id, CANCELED);
    assert (set k | k in r && Counted(r[k], start, end))
        == (set k | k in t - {id} && Counted((t - {id})[k], start, end));
  }

  /**
    `updateStatus` does not keep the invariant: reviving a canceled row whose slot
    was taken meanwhile leaves two non-canceled rows overlapping.
   */
  lemma StatusUpdateCanBreakNoOverlaps()
    ensures var t := map[1 := Appointment(1, 1, 1, 0, 60, PENDING, None),
                         2 := Appointment(2, 1, 1, 0, 60, CANCELED, None)];
            NoOverlaps(t) && !NoOverlaps(StatusUpdated(t, 2, PENDING))
  {
    var t := map[1 := Appointment(1, 1, 1, 0, 60, PENDING, None),
                 2 := Appointment(2, 1, 1, 0, 60, CANCELED, None)];
    var r := StatusUpdated(t, 2, PENDING);
    assert Clash(r[1], r[2]);
  }

  /**
    A 60-minute service booked at 10:00 ends at 11:00; a request for 10:30-11:30
    is counted as overlapping and one for 11:00-12:00 is not.
   */
  lemma OneHourScenario(t: Table, start: int)
    requires t == map[1 := Appointment(1, 7, 3, start, start + 60 * MILLIS_PER_MINUTE, PENDING, None)]
    ensures CountOverlaps(t, start + 30 * MILLIS_PER_MINUTE, start + 90 * MILLIS_PER_MINUTE) == 1
    ensures CountOverlaps(t, start + 60 * MILLIS_PER_MINUTE, start + 120 * MILLIS_PER_MINUTE) == 0
  {
    assert (set k | k in t && Counted(t[k], start + 30 * MILLIS_PER_MINUTE, start + 90 * MILLIS_PER_MINUTE)) == {1};
  }

  // ---------------------------------------------------------------------------
  // getBetween: rows with start <= startAt <= end, ascending by startAt
  // ---------------------------------------------------------------------------

  predicate SortedByStart(xs: seq<Appointment>) {
    forall i, j | 0 <= i < j < |xs| :: xs[i].startAt <= xs[j].startAt
  }

  function InsertByStart(a: Appointment, xs: seq<Appointment>): (r: seq<Appointment>)
    requires SortedByStart(xs)
    ensures SortedByStart(r)
    ensures multiset(r) == multiset(xs) + multiset{a}
    ensures |r| == |xs| + 1
    ensures r[0] == a || (xs != [] && r[0] == xs[0])
  {
    if xs == [] || a.startAt <= xs[0].startAt then [a] + xs
    else
      var rest := InsertByStart(a, xs[1..]);
      assert xs == [xs[0]] + xs[1..];
      [xs[0]] + rest
  }

  /** Stable insertion sort by start time. */
  function SortByStart(xs: seq<Appointment>): (r: seq<Appointment>)
    ensures SortedByStart(r)
    ensures multiset(r) == multiset(xs)
    ensures |r| == |xs|
  {
    if xs == [] then []
    else
      assert xs == [xs[0]] + xs[1..];
      InsertByStart(xs[0], SortByStart(xs[1..]))
  }

  predicate InRange(a: Appointment, start: int, end: int) {
    start <= a.startAt <= end
  }

  /**
    `getBetween(start, end)`: every row whose start lies in `[start, end]` (both
    bounds included), each once, ascending by start time. Rows with equal start
    times come in ascending id order.
   */
  ghost function GetBetween(t: Table, start: int, end: int): (r: seq<Appointment>)
    ensures SortedByStart(r)
    ensures |r| == |set k | k in t && InRange(t[k], start, end)|
    ensures forall a | a in r :: InRange(a, start, end) && exists k :: k in t && t[k] == a
    ensures forall k | k in t && InRange(t[k], start, end) :: t[k] in r
  {
    var ids := set k | k in t && InRange(t[k], start, end);
    var ks := SortedKeys(ids);
    var rows := RowsAt(t, ks);
    SortKeepsMembers(rows);
    forall k | k in ids ensures t[k] in rows {
      var i :| 0 <= i < |ks| && ks[i] == k;
      assert rows[i] == t[k];
    }
    var r := SortByStart(rows);
    forall a | a in r ensures InRange(a, start, end) && exists k :: k in t && t[k] == a {
      assert a in rows;
      var i :| 0 <= i < |ks| && t[ks[i]] == a;
      assert ks[i] in ids;
    }
    r
  }

  /** The rows stored under the keys `ks`, in that order. */
  ghost function RowsAt(t: Table, ks: seq<int>): (rows: seq<Appointment>)
    requires forall i | 0 <= i < |ks| :: ks[i] in t
    ensures |rows| == |ks|
    ensures forall i | 0 <= i < |ks| :: rows[i] == t[ks[i]]
    ensures forall a | a in rows :: exists i :: 0 <= i < |ks| && t[ks[i]] == a
  {
    seq(|ks|, i requires 0 <= i < |ks| => t[ks[i]])
  }

  /** Sorting neither adds nor drops a row. */
  lemma SortKeepsMembers(xs: seq<Appointment>)
    ensures forall a :: a in SortByStart(xs) <==> a in xs
  {
    var r := SortByStart(xs);
    forall a ensures a in r <==> a in xs {
      assert a in r <==> a in multiset(r);
      assert a in xs <==> a in multiset(xs);
    }
  }

  // ---------------------------------------------------------------------------
  // getBetweenUi (inner joins) and getDayUi (client inner join, service left join)
  // ---------------------------------------------------------------------------

  /** Whether the join keeps the row: its client exists and, for an inner service join, its service too. */
  predicate Joinable(a: Appointment, clients: map<int, Client>, services: map<int, Service>, innerService: bool) {
    a.clientId in clients && (innerService ==> a.serviceId in services)
  }

  /** The projected columns of a joined row; a missing service gives null name and price. */
  function UiRow(a: Appointment, clients: map<int, Client>, services: map<int, Service>): (u: AppointmentUi)
    requires a.clientId in clients
    ensures u.appointment == a
    ensures u.clientName == clients[a.clientId].name && u.clientPhone == clients[a.clientId].phone
    ensures u.serviceName.Some? <==> a.serviceId in services
    ensures u.servicePrice.Some? <==> a.serviceId in services
    ensures a.serviceId in services ==> u.serviceName.value == services[a.serviceId].name && u.servicePrice.value == services[a.serviceId].price
  {
    var c := clients[a.clientId];
    if a.serviceId in services then
      AppointmentUi(a, c.name, Some(services[a.serviceId].name), c.phone, Some(services[a.serviceId].price))
    else
      AppointmentUi(a, c.name, None, c.phone, None)
  }

  /** The rows the join keeps, in their order. */
  function Kept(rows: seq<Appointment>, clients: map<int, Client>, services: map<int, Service>, innerService: bool): (k: seq<Appointment>)
    ensures |k| <= |rows|
    ensures forall i | 0 <= i < |k| :: k[i] in rows && Joinable(k[i], clients, services, innerService)
  {
    if rows == [] then []
    else
      var rest := Kept(rows[1..], clients, services, innerService);
      if Joinable(rows[0], clients, services, innerService) then
        var k := [rows[0]] + rest;
        assert forall i | 1 <= i < |k| :: k[i] == rest[i - 1];
        k
      else
        rest
  }

  /** The join drops no row whose client (and, for an inner join, service) exists. */
  lemma {:induction false} KeptComplete(rows: seq<Appointment>, clients: map<int, Client>, services: map<int, Service>, innerService: bool)
    ensures forall a | a in rows && Joinable(a, clients, services, innerService) :: a in Kept(rows, clients, services, innerService)
  {
    if rows != [] {
      KeptComplete(rows[1..], clients, services, innerService);
      assert forall a | a in rows :: a == rows[0] || a in rows[1..] by {
        assert rows == [rows[0]] + rows[1..];
      }
    }
  }

  /** The join keeps the rows' order, so rows sorted by start stay sorted. */
  lemma {:induction false} KeptSorted(rows: seq<Appointment>, clients: map<int, Client>, services: map<int, Service>, innerService: bool)
    requires SortedByStart(rows)
    ensures SortedByStart(Kept(rows, clients, services, innerService))
  {
    if rows != [] {
      var rest := Kept(rows[1..], clients, services, innerService);
      KeptSorted(rows[1..], clients, services, innerService);
      if Joinable(rows[0], clients, services, innerService) {
        forall i | 0 <= i < |rest| ensures rows[0].startAt <= rest[i].startAt {
          var m :| 0 <= m < |rows[1..]| && rows[1..][m] == rest[i];
          assert rows[m + 1] == rest[i];
        }
        SortedCons(rows[0], rest);
      }
    }
  }

  /** A row no later than every row of a sorted list can go in front of it. */
  lemma SortedCons(x: Appointment, rest: seq<Appointment>)
    requires SortedByStart(rest)
    requires forall i | 0 <= i < |rest| :: x.startAt <= rest[i].startAt
    ensures SortedByStart([x] + rest)
  {
    var r := [x] + rest;
    forall i, j | 0 <= i < j < |r| ensures r[i].startAt <= r[j].startAt {
      assert r[j] == rest[j - 1];
      if i > 0 { assert r[i] == rest[i - 1]; }
    }
  }

  /** Joins each row in order, dropping those the join does not keep. */
  function Join(rows: seq<Appointment>, clients: map<int, Client>, services: map<int, Service>, innerService: bool): seq<AppointmentUi> {
    var k := Kept(rows, clients, services, innerService);
    seq(|k|, i requires 0 <= i < |k| => UiRow(k[i], clients, services))
  }

  /**
    What the join returns: the projection of exactly the rows it keeps, none
    added and none lost, in the rows' order.
   */
  lemma JoinFacts(rows: seq<Appointment>, clients: map<int, Client>, services: map<int, Service>, innerService: bool)
    ensures var r := Join(rows, clients, services, innerService);
      && |r| <= |rows|
      && (forall u | u in r :: u.appointment in rows && Joinable(u.appointment, clients, services, innerService)
                                && u == UiRow(u.appointment, clients, services))
      && (forall a | a in rows && Joinable(a, clients, services, innerService) :: UiRow(a, clients, services) in r)
      && (SortedByStart(rows) ==> forall i, j | 0 <= i < j < |r| :: r[i].appointment.startAt <= r[j].appointment.startAt)
  {
    var k := Kept(rows, clients, services, innerService);
    var r := Join(rows, clients, services, innerService);
    forall u | u in r
      ensures u.appointment in rows && Joinable(u.appointment, clients, services, innerService)
      ensures u == UiRow(u.appointment, clients, services)
    {
      var i :| 0 <= i < |r| && r[i] == u;
      assert u.appointment == k[i];
    }
    KeptComplete(rows, clients, services, innerService);
    forall a | a in rows && Joinable(a, clients, services, innerService) ensures UiRow(a, clients, services) in r {
      var i :| 0 <= i < |k| && k[i] == a;
      assert r[i] == UiRow(a, clients, services);
    }
    if SortedByStart(rows) {
      KeptSorted(rows, clients, services, innerService);
      forall i, j | 0 <= i < j < |r| ensures r[i].appointment.startAt <= r[j].appointment.startAt {
        assert r[i].appointment == k[i] && r[j].appointment == k[j];
      }
    }
  }

  /** A list whose every row the join keeps passes through it whole. */
  lemma {:induction false} KeptAll(rows: seq<Appointment>, clients: map<int, Client>, services: map<int, Service>, innerService: bool)
    requires forall i | 0 <= i < |rows| :: Joinable(rows[i], clients, services, innerService)
    ensures Kept(rows, clients, services, innerService) == rows
  {
    if rows != [] {
      KeptAll(rows[1..], clients, services, innerService);
      assert rows == [rows[0]] + rows[1..];
    }
  }

  /** The stored rows the join keeps, under their own keys. */
  ghost function JoinableRows(t: Table, clients: map<int, Client>, services: map<int, Service>, innerService: bool): Table {
    map k | k in t && Joinable(t[k], clients, services, innerService) :: t[k]
  }

  /** The range query over the joinable rows returns only rows the join keeps. */
  lemma KeptJoinable(t: Table, clients: map<int, Client>, services: map<int, Service>, start: int, end: int, innerService: bool)
    ensures var rows := GetBetween(JoinableRows(t, clients, services, innerService), start, end);
      Kept(rows, clients, services, innerService) == rows
  {
    var j := JoinableRows(t, clients, services, innerService);
    var rows := GetBetween(j, start, end);
    forall i | 0 <= i < |rows| ensures Joinable(rows[i], clients, services, innerService) {
      assert rows[i] in rows;
      var k :| k in j && j[k] == rows[i];
    }
    KeptAll(rows, clients, services, innerService);
  }

  /** The keys in range of the joinable rows are the in-range keys whose row the join keeps. */
  lemma JoinableKeys(t: Table, clients: map<int, Client>, services: map<int, Service>, start: int, end: int, innerService: bool)
    ensures var j := JoinableRows(t, clients, services, innerService);
      (set k | k in j && InRange(j[k], start, end))
      == (set k | k in t && InRange(t[k], start, end) && Joinable(t[k], clients, services, innerService))
  {
    var j := JoinableRows(t, clients, services, innerService);
    var a := set k | k in j && InRange(j[k], start, end);
    var b := set k | k in t && InRange(t[k], start, end) && Joinable(t[k], clients, services, innerService);
    forall k | k in a ensures k in b { }
    forall k | k in b ensures k in a { }
  }

  /** The join's keys, spelled out for the inner and the left service join. */
  lemma JoinableSpelledOut(t: Table, clients: map<int, Client>, services: map<int, Service>, start: int, end: int)
    ensures (set k | k in t && InRange(t[k], start, end) && Joinable(t[k], clients, services, true))
         == (set k | k in t && InRange(t[k], start, end) && t[k].clientId in clients && t[k].serviceId in services)
    ensures (set k | k in t && InRange(t[k], start, end) && Joinable(t[k], clients, services, false))
         == (set k | k in t && InRange(t[k], start, end) && t[k].clientId in clients)
  {
  }

  /**
    The range query over the joined tables: the rows of `JoinableRows` in
    `[start, end]`, ascending by start, each projected with its client and
    service columns.
   */
  ghost function JoinBetween(t: Table, clients: map<int, Client>, services: map<int, Service>, start: int, end: int, innerService: bool): (r: seq<AppointmentUi>)
    ensures |r| == |set k | k in t && InRange(t[k], start, end) && Joinable(t[k], clients, services, innerService)|
    ensures forall i, j | 0 <= i < j < |r| :: r[i].appointment.startAt <= r[j].appointment.startAt
    ensures forall u | u in r :: InRange(u.appointment, start, end) && u.appointment in t.Values
                                 && Joinable(u.appointment, clients, services, innerService)
                                 && u == UiRow(u.appointment, clients, services)
    ensures forall k | k in t && InRange(t[k], start, end) && Joinable(t[k], clients, services, innerService) ::
              UiRow(t[k], clients, services) in r
  {
    var j := JoinableRows(t, clients, services, innerService);
    var rows := GetBetween(j, start, end);
    KeptJoinable(t, clients, services, start, end, innerService);
    JoinFacts(rows, clients, services, innerService);
    JoinableKeys(t, clients, services, start, end, innerService);
    var r := Join(rows, clients, services, innerService);
    forall u | u in r ensures u.appointment in t.Values {
      var k :| k in j && j[k] == u.appointment;
      assert t[k] == u.appointment;
    }
    forall k | k in t && InRange(t[k], start, end) && Joinable(t[k], clients, services, innerService)
      ensures UiRow(t[k], clients, services) in r
    {
      assert k in j && j[k] == t[k];
    }
    r
  }

  /**
    `getBetweenUi(start, end)`: rows in range whose client and service both
    exist, one per such stored row.
   */
  ghost function GetBetweenUi(t: Table, clients: map<int, Client>, services: map<int, Service>, start: int, end: int): (r: seq<AppointmentUi>)
    ensures |r| == |set k | k in t && InRange(t[k], start, end) && t[k].clientId in clients && t[k].serviceId in services|
    ensures forall i, j | 0 <= i < j < |r| :: r[i].appointment.startAt <= r[j].appointment.startAt
    ensures forall u | u in r :: InRange(u.appointment, start, end) && u.appointment in t.Values
                                 && u.appointment.clientId in clients && u.appointment.serviceId in services
                                 && u == UiRow(u.appointment, clients, services)
    ensures forall k | k in t && InRange(t[k], start, end) && t[k].clientId in clients && t[k].serviceId in services ::
              UiRow(t[k], clients, services) in r
  {
    JoinableSpelledOut(t, clients, services, start, end);
    JoinBetween(t, clients, services, start, end, true)
  }

  /**
    `getDayUi(startOfDay, endOfDay)`: rows in range whose client exists, one
    per such stored row; the service may be missing.
   */
  ghost function GetDayUi(t: Table, clients: map<int, Client>, services: map<int, Service>, startOfDay: int, endOfDay: int): (r: seq<AppointmentUi>)
    ensures |r| == |set k | k in t && InRange(t[k], startOfDay, endOfDay) && t[k].clientId in clients|
    ensures forall i, j | 0 <= i < j < |r| :: r[i].appointment.startAt <= r[j].appointment.startAt
    ensures forall u | u in r :: InRange(u.appointment, startOfDay, endOfDay) && u.appointment in t.Values
                                 && u.appointment.clientId in clients
                                 && u == UiRow(u.appointment, clients, services)
    ensures forall k | k in t && InRange(t[k], startOfDay, endOfDay) && t[k].clientId in clients ::
              UiRow(t[k], clients, services) in r
  {
    JoinableSpelledOut(t, clients, services, startOfDay, endOfDay);
    JoinBetween(t, clients, services, startOfDay, endOfDay, false)
  }

  // ---------------------------------------------------------------------------
  // dayCountsBetween: per-day counts of the rows in range, optionally of one status
  // ---------------------------------------------------------------------------

  predicate DaysAscending(g: seq<DayCount>) {
    forall i, j | 0 <= i < j < |g| :: g[i].day < g[j].day
  }

  predicate AllPositive(g: seq<DayCount>) {
    forall i | 0 <= i < |g| :: g[i].count > 0
  }

  /** The count listed for day `d` (0 when the day has no group). */
  function CountOf(g: seq<DayCount>, d: int): nat {
    if g == [] then 0 else (if g[0].day == d then g[0].count else 0) + CountOf(g[1..], d)
  }

  /** The sum of all listed counts. */
  function Total(g: seq<DayCount>): nat {
    if g == [] then 0 else g[0].count + Total(g[1..])
  }

  /** Adds one row on day `d` to the groups: increments its group or inserts a new one in order. */
  function AddDay(g: seq<DayCount>, d: int): (r: seq<DayCount>)
    requires DaysAscending(g)
    ensures DaysAscending(r)
    ensures AllPositive(g) ==> AllPositive(r)
    ensures r != [] && r[0].day == (if g == [] || d < g[0].day then d else g[0].day)
  {
    if g == [] then [DayCount(d, 1)]
    else if g[0].day == d then
      var r := [DayCount(d, g[0].count + 1)] + g[1..];
      assert r[1..] == g[1..];
      r
    else if d < g[0].day then
      var r := [DayCount(d, 1)] + g;
      assert r[1..] == g;
      r
    else
      var rest := AddDay(g[1..], d);
      var r := [g[0]] + rest;
      assert r[1..] == rest;
      r
  }

  /** Adding a row on day `d` raises the total and the count of `d`, and of no other day, by one. */
  lemma {:induction false} AddDayCounts(g: seq<DayCount>, d: int)
    requires DaysAscending(g)
    ensures Total(AddDay(g, d)) == Total(g) + 1
    ensures forall e :: CountOf(AddDay(g, d), e) == CountOf(g, e) + (if e == d then 1 else 0)
  {
    var r := AddDay(g, d);
    assert r[1..] == (if g == [] then [] else if g[0].day == d then g[1..] else if d < g[0].day then g else AddDay(g[1..], d));
    if g != [] && g[0].day != d && d >= g[0].day {
      AddDayCounts(g[1..], d);
    }
  }

  /** The day a row's start falls on, in the device's zone. */
  function DayOfRow(t: Table, k: int, dayOf: int -> int): int
    requires k in t
  {
    dayOf(t[k].startAt)
  }

  /** Groups the rows under the distinct keys `ks` by day. */
  ghost function Group(t: Table, ks: seq<int>, dayOf: int -> int): (r: seq<DayCount>)
    requires forall i | 0 <= i < |ks| :: ks[i] in t
    requires forall i, j | 0 <= i < j < |ks| :: ks[i] < ks[j]
    ensures DaysAscending(r) && AllPositive(r)
    ensures Total(r) == |ks|
    ensures forall e :: CountOf(r, e) == |set k | k in ks && DayOfRow(t, k, dayOf) == e|
  {
    if ks == [] then []
    else
      var rest := Group(t, ks[1..], dayOf);
      var r := AddDay(rest, DayOfRow(t, ks[0], dayOf));
      AddDayCounts(rest, DayOfRow(t, ks[0], dayOf));
      forall e ensures CountOf(r, e) == |set k | k in ks && DayOfRow(t, k, dayOf) == e| {
        DaySetStep(t, ks, dayOf, e);
      }
      r
  }

  /** Splitting off the first key of `ks` splits the set of keys on day `e`. */
  lemma DaySetStep(t: Table, ks: seq<int>, dayOf: int -> int, e: int)
    requires ks != [] && forall i | 0 <= i < |ks| :: ks[i] in t
    requires forall i, j | 0 <= i < j < |ks| :: ks[i] < ks[j]
    ensures |set k | k in ks && DayOfRow(t, k, dayOf) == e|
         == (if DayOfRow(t, ks[0], dayOf) == e then 1 else 0) + |set k | k in ks[1..] && DayOfRow(t, k, dayOf) == e|
  {
    var tail := set k | k in ks[1..] && DayOfRow(t, k, dayOf) == e;
    var head := if DayOfRow(t, ks[0], dayOf) == e then {ks[0]} else {};
    assert ks[0] !in ks[1..] by {
      forall i | 0 <= i < |ks[1..]| ensures ks[1..][i] != ks[0] {
        assert ks[1..][i] == ks[i + 1];
      }
    }
    assert forall k :: k in ks <==> k == ks[0] || k in ks[1..] by {
      assert ks == [ks[0]] + ks[1..];
    }
    assert (set k | k in ks && DayOfRow(t, k, dayOf) == e) == head + tail;
    assert head !! tail;
  }

  /** The row filter of `dayCountsBetween`: start in range and, when a status is given, that status. */
  predicate DayCountMatch(a: Appointment, start: int, end: int, status: Option<string>) {
    InRange(a, start, end) && (status.None? || a.status == status.value)
  }

  /**
    `dayCountsBetween(start, end, status)`: one group per day that has matching rows,
    ascending by day, each with the number of matching rows starting that day; the
    counts add up to the number of matching rows.
   */
  ghost function DayCountsBetween(t: Table, start: int, end: int, status: Option<string>, dayOf: int -> int): (r: seq<DayCount>)
    ensures DaysAscending(r) && AllPositive(r)
    ensures Total(r) == |set k | k in t && DayCountMatch(t[k], start, end, status)|
    ensures forall e :: CountOf(r, e) == |set k | k in t && DayCountMatch(t[k], start, end, status) && DayOfRow(t, k, dayOf) == e|
  {
    var ids := set k | k in t && DayCountMatch(t[k], start, end, status);
    var ks := SortedKeys(ids);
    var r := Group(t, ks, dayOf);
    forall e ensures CountOf(r, e) == |set k | k in t && DayCountMatch(t[k], start, end, status) && DayOfRow(t, k, dayOf) == e| {
      SameDaySet(t, ks, ids, start, end, status, dayOf, e);
    }
    r
  }

  lemma SameDaySet(t: Table, ks: seq<int>, ids: set<int>, start: int, end: int, status: Option<string>, dayOf: int -> int, e: int)
    requires ids == set k | k in t && DayCountMatch(t[k], start, end, status)
    requires forall x :: x in ks <==> x in ids
    ensures forall i | 0 <= i < |ks| :: ks[i] in t
    ensures (set k | k in ks && DayOfRow(t, k, dayOf) == e)
         == (set k | k in t && DayCountMatch(t[k], start, end, status) && DayOfRow(t, k, dayOf) == e)
  {
    forall i | 0 <= i < |ks| ensures ks[i] in t {
      var k := ks[i];
      assert k in ks;
      assert k in ids;
      assert k in t;
    }
  }

  /** Within ascending groups, the count listed for a group's day is that group's count. */
  lemma {:induction false} CountOfListedDay(g: seq<DayCount>, i: nat)
    requires DaysAscending(g) && i < |g|
    ensures CountOf(g, g[i].day) == g[i].count
  {
    if i == 0 {
      CountOfAbsent(g[1..], g[0].day);
    } else {
      CountOfListedDay(g[1..], i - 1);
    }
  }

  /** A day below every listed day has count 0. */
  lemma {:induction false} CountOfAbsent(g: seq<DayCount>, d: int)
    requires forall i | 0 <= i < |g| :: d < g[i].day
    ensures CountOf(g, d) == 0
  {
    if g != [] {
      CountOfAbsent(g[1..], d);
    }
  }
}

=== FILE: appointment_repository.dfy ===
/**
  The appointment repository (data/AppointmentRepository.kt): `create` and
  `update` guard their write with the overlap count, `delete` and `setStatus`
  write without any check. Each store write may throw; the `fault` argument
  says whether it does, and a write that throws changes nothing.
 */
module AppointmentRepository {
  import opened Text
  import opened Entities
  import opened AppointmentDao
  import opened Store

  /** The message of the `IllegalStateException` thrown by the overlap guard. */
  const OVERLAP_MESSAGE: string := "Ya hay un turno en ese horario"

  /** The end of an appointment of `durationMinutes` minutes starting at `startAt`. */
  function EndAt(startAt: int, durationMinutes: int): (endAt: int)
    ensures durationMinutes > 0 ==> startAt < endAt
    ensures durationMinutes == 0 ==> endAt == startAt
  {
    startAt + durationMinutes * MILLIS_PER_MINUTE
  }

  /** The active service with key `serviceId`, as `getActive().first().first { it.id == serviceId }` finds it. */
  function ActiveService(services: map<int, Service>, serviceId: int): (r: Option<Service>)
    ensures r.Some? <==> serviceId in services && services[serviceId].active
    ensures r.Some? ==> r.value == services[serviceId]
  {
    if serviceId in services && services[serviceId].active then Some(services[serviceId]) else None
  }

  /**
    `create(clientId, service, startAt, notes)`: refuses a slot that any
    non-canceled row overlaps; otherwise inserts a pending row ending
    `durationMinutes` minutes later, with trimmed notes, and returns its key.
   */
  method Create(db: Db, clientId: int, service: Service, startAt: int, notes: Option<string>, fault: Option<Fault>)
      returns (r: Result<int>)
    requires db.Valid()
    modifies db
    ensures db.Valid()
    ensures var endAt := EndAt(startAt, service.durationMinutes);
      if CountOverlaps(old(db.appointments), startAt, endAt) > 0 then
        r == Err(IllegalState(OVERLAP_MESSAGE)) && db.Unchanged()
      else if fault.Some? then
        r == Err(StoreFailure(fault.value)) && db.Unchanged()
      else
        && r == Ok(old(db.nextAppointmentId))
        && db.appointments == Inserted(old(db.appointments), r.value,
             Appointment(0, clientId, service.id, startAt, endAt, PENDING, TrimOpt(notes)))
        && db.OnlyAppointmentsChanged()
    ensures NoOverlaps(old(db.appointments)) ==> NoOverlaps(db.appointments)
  {
    var endAt := EndAt(startAt, service.durationMinutes);
    if CountOverlaps(db.appointments, startAt, endAt) > 0 {
      return Err(IllegalState(OVERLAP_MESSAGE));
    }
    if fault.Some? {
      return Err(StoreFailure(fault.value));
    }
    var row := Appointment(0, clientId, service.id, startAt, endAt, PENDING, TrimOpt(notes));
    ghost var before := db.appointments;
    var id := db.InsertAppointment(row);
    if NoOverlaps(before) {
      InsertKeepsNoOverlaps(before, id, row);
    }
    return Ok(id);
  }

  /**
    `update(id, clientId, serviceId, startAt, notes)`: looks the service up among
    the active ones (throwing when it is not there), recomputes the end from its
    current duration, refuses a slot that any other non-canceled row overlaps, and
    otherwise rewrites the row's columns but not its status.
   */
  method Update(db: Db, id: int, clientId: int, serviceId: int, startAt: int, notes: Option<string>, fault: Option<Fault>)
      returns (r: Result<()>)
    requires db.Valid()
    modifies db
    ensures db.Valid()
    ensures ActiveService(old(db.services), serviceId).None? ==> r == Err(NoSuchElement) && db.Unchanged()
    ensures ActiveService(old(db.services), serviceId).Some? ==>
      var endAt := EndAt(startAt, old(db.services)[serviceId].durationMinutes);
      if CountOverlapsExcluding(old(db.appointments), id, startAt, endAt) > 0 then
        r == Err(IllegalState(OVERLAP_MESSAGE)) && db.Unchanged()
      else if fault.Some? then
        r == Err(StoreFailure(fault.value)) && db.Unchanged()
      else
        && r == Ok(())
        && db.appointments == Updated(old(db.appointments), id, clientId, serviceId, startAt, endAt, TrimOpt(notes))
        && db.nextAppointmentId == old(db.nextAppointmentId)
        && db.OnlyAppointmentsChanged()
    ensures NoOverlaps(old(db.appointments)) ==> NoOverlaps(db.appointments)
  {
    var service := ActiveService(db.services, serviceId);
    if service.None? {
      return Err(NoSuchElement);
    }
    var endAt := EndAt(startAt, service.value.durationMinutes);
    if CountOverlapsExcluding(db.appointments, id, startAt, endAt) > 0 {
      return Err(IllegalState(OVERLAP_MESSAGE));
    }
    if fault.Some? {
      return Err(StoreFailure(fault.value));
    }
    ghost var before := db.appointments;
    db.UpdateAppointment(id, clientId, serviceId, startAt, endAt, TrimOpt(notes));
    if NoOverlaps(before) {
      UpdateKeepsNoOverlaps(before, id, clientId, serviceId, startAt, endAt, TrimOpt(notes));
    }
    return Ok(());
  }

  /** `delete(id)`: removes the row, without any check. */
  method Delete(db: Db, id: int, fault: Option<Fault>) returns (r: Result<()>)
    requires db.Valid()
    modifies db
    ensures db.Valid()
    ensures fault.Some? ==> r == Err(StoreFailure(fault.value)) && db.Unchanged()
    ensures fault.None? ==> r == Ok(()) && db.appointments == Deleted(old(db.appointments), id)
                            && db.nextAppointmentId == old(db.nextAppointmentId) && db.OnlyAppointmentsChanged()
    ensures NoOverlaps(old(db.appointments)) ==> NoOverlaps(db.appointments)
  {
    if fault.Some? {
      return Err(StoreFailure(fault.value));
    }
    db.DeleteAppointment(id);
    return Ok(());
  }

  /**
    `setStatus(id, status)`: stores any status string, without any overlap
    check; see `AppointmentDao.StatusUpdateCanBreakNoOverlaps`.
   */
  method SetStatus(db: Db, id: int, status: string, fault: Option<Fault>) returns (r: Result<()>)
    requires db.Valid()
    modifies db
    ensures db.Valid()
    ensures fault.Some? ==> r == Err(StoreFailure(fault.value)) && db.Unchanged()
    ensures fault.None? ==> r == Ok(()) && db.appointments == StatusUpdated(old(db.appointments), id, status)
                            && db.nextAppointmentId == old(db.nextAppointmentId) && db.OnlyAppointmentsChanged()
  {
    if fault.Some? {
      return Err(StoreFailure(fault.value));
    }
    db.UpdateStatus(id, status);
    return Ok(());
  }
}

=== FILE: appointments_ui.dfy ===
/**
  The calendar's view model (ui/AppointmentsViewModel.kt): the shown month and
  selected date, the snackbar messages it emits, and the create, update,
  delete and status actions, which call the appointment repository and keep
  the reminder queue in step. The clock reading is the argument `now`, the
  device's zone the argument `zone`, and a store exception the argument `fault`.
 */
module AppointmentsUi {
  import opened Text
  import opened Entities
  import opened AppointmentDao
  import opened Store
  import opened ReminderScheduler
  import opened CalendarScreen
  import AppointmentRepository

  // ---------------------------------------------------------------------------
  // Month arithmetic
  // ---------------------------------------------------------------------------

  /** The number of months since January of year 0. */
  function MonthIndex(m: YearMonth): int {
    m.year * 12 + m.month - 1
  }

  /** `YearMonth.plusMonths(n)`; `minusMonths(n)` is `plusMonths(-n)`. */
  function PlusMonths(m: YearMonth, n: int): (r: YearMonth)
    ensures r.Valid()
    ensures MonthIndex(r) == MonthIndex(m) + n
  {
    var i := MonthIndex(m) + n;
    YearMonth(i / 12, i % 12 + 1)
  }

  /** `prevMonth` undoes `nextMonth` and the other way round. */
  lemma PrevUndoesNext(m: YearMonth)
    requires m.Valid()
    ensures PlusMonths(PlusMonths(m, 1), -1) == m
    ensures PlusMonths(PlusMonths(m, -1), 1) == m
  {
    MonthIndexInjective(PlusMonths(PlusMonths(m, 1), -1), m);
    MonthIndexInjective(PlusMonths(PlusMonths(m, -1), 1), m);
  }

  /** Two valid months with the same index are the same month. */
  lemma MonthIndexInjective(a: YearMonth, b: YearMonth)
    requires a.Valid() && b.Valid() && MonthIndex(a) == MonthIndex(b)
    ensures a == b
  {
    var i := MonthIndex(a);
    assert i == a.year * 12 + (a.month - 1) && 0 <= a.month - 1 < 12;
    assert i / 12 == a.year && i % 12 == a.month - 1;
    assert i == b.year * 12 + (b.month - 1) && 0 <= b.month - 1 < 12;
    assert i / 12 == b.year && i % 12 == b.month - 1;
  }

  /** December is followed by January of the next year. */
  lemma NextAfterDecember(year: int)
    ensures PlusMonths(YearMonth(year, 12), 1) == YearMonth(year + 1, 1)
  {
    MonthIndexInjective(PlusMonths(YearMonth(year, 12), 1), YearMonth(year + 1, 1));
  }

  /** `YearMonth.from(date)`. */
  function MonthOf(d: LocalDate): YearMonth {
    YearMonth(d.year, d.month)
  }

  // ---------------------------------------------------------------------------
  // Messages
  // ---------------------------------------------------------------------------

  const CREATED: string := "Turno creado"
  const SAVED: string := "Cambios guardados"
  const DELETED: string := "Turno eliminado"
  const CREATE_FAILED: string := "Error al crear turno"
  const UPDATE_FAILED: string := "Error al actualizar turno"
  const DELETE_FAILED: string := "Error al eliminar turno"
  const STATUS_FAILED: string := "Error al cambiar estado"

  /** The word `setStatus` reports for the status it wrote: anything but "done" and "canceled" reads "pendiente". */
  function StatusWord(status: string): (w: string)
    ensures status == DONE ==> w == "realizado"
    ensures status == CANCELED ==> w == "cancelado"
    ensures status != DONE && status != CANCELED ==> w == "pendiente"
  {
    if status == DONE then "realizado" else if status == CANCELED then "cancelado" else "pendiente"
  }

  /** For the three statuses the application writes, the snackbar agrees with the calendar row's label. */
  lemma StatusWordMatchesRowLabel(status: string)
    requires status == PENDING || status == DONE || status == CANCELED
    ensures StatusWord(status) == Lowercase(StatusLabel(status))
  {
    assert Lowercase(PENDING) == PENDING;
    assert Lowercase(DONE) == DONE;
    assert Lowercase(CANCELED) == CANCELED;
    assert Lowercase("Pendiente") == "pendiente";
    assert Lowercase("Realizado") == "realizado";
    assert Lowercase("Cancelado") == "cancelado";
  }

  /**
    For any other stored status the two disagree: the row shows "Ausente" for
    "no_show" while the snackbar reports "pendiente", and an upper-case "DONE"
    is "Realizado" on the row but "pendiente" in the snackbar.
   */
  lemma StatusWordIgnoresOtherStatuses()
    ensures StatusLabel("no_show") == "Ausente" && StatusWord("no_show") == "pendiente"
    ensures StatusLabel("DONE") == "Realizado" && StatusWord("DONE") == "pendiente"
  {
    assert Lowercase("no_show") == "no_show";
    assert Lowercase("DONE") == "done";
  }

  /**
    The message `create` or `update` shows for a failure: the overlap text for
    any `IllegalStateException`, whether the overlap guard or the store threw
    it, else the action's own error text.
   */
  function FailureMessage(e: Error, otherwise: string): (msg: string)
    ensures e.IllegalState? ==> msg == AppointmentRepository.OVERLAP_MESSAGE
    ensures e.StoreFailure? ==> msg == (if e.fault.illegalState then AppointmentRepository.OVERLAP_MESSAGE else otherwise)
    ensures e.NoSuchElement? ==> msg == otherwise
  {
    if e.IsIllegalState() then AppointmentRepository.OVERLAP_MESSAGE else otherwise
  }

  // ---------------------------------------------------------------------------
  // The view model
  // ---------------------------------------------------------------------------

  class AppointmentsViewModel {
    const db: Db
    const reminders: WorkQueue
    /** The snackbar messages emitted so far, oldest first. */
    var messages: seq<string>
    var currentMonth: YearMonth
    var selectedDate: LocalDate

    predicate Valid()
      reads this, db, reminders
    {
      db.Valid() && reminders.Valid() && currentMonth.Valid()
    }

    /** A view model opened on `today`'s month with `today` selected. */
    constructor (db: Db, reminders: WorkQueue, today: LocalDate)
      requires db.Valid() && reminders.Valid() && 1 <= today.month <= 12
      ensures Valid()
      ensures this.db == db && this.reminders == reminders
      ensures messages == [] && currentMonth == MonthOf(today) && selectedDate == today
    {
      this.db := db;
      this.reminders := reminders;
      messages := [];
      currentMonth := MonthOf(today);
      selectedDate := today;
    }

    /** `prevMonth()`. */
    method PrevMonth()
      requires Valid()
      modifies this
      ensures Valid()
      ensures currentMonth == PlusMonths(old(currentMonth), -1)
      ensures MonthIndex(currentMonth) == MonthIndex(old(currentMonth)) - 1
      ensures messages == old(messages) && selectedDate == old(selectedDate)
    {
      currentMonth := PlusMonths(currentMonth, -1);
    }

    /** `nextMonth()`. */
    method NextMonth()
      requires Valid()
      modifies this
      ensures Valid()
      ensures currentMonth == PlusMonths(old(currentMonth), 1)
      ensures MonthIndex(currentMonth) == MonthIndex(old(currentMonth)) + 1
      ensures messages == old(messages) && selectedDate == old(selectedDate)
    {
      currentMonth := PlusMonths(currentMonth, 1);
    }

    /** `selectDate(date)`. */
    method SelectDate(date: LocalDate)
      requires Valid()
      modifies this
      ensures Valid()
      ensures selectedDate == date
      ensures messages == old(messages) && currentMonth == old(currentMonth)
    {
      selectedDate := date;
    }

    /**
      `create(clientId, serviceId, startAt, notes, reminderMinutesBefore)`.
      The service lookup runs outside `runCatching`: when no active service has
      key `serviceId` the coroutine fails with `NoSuchElementException`
      (returned as `crash`) and nothing else happens. Otherwise exactly one
      message is emitted; on success the reminder is scheduled when a lead
      time is given and the calendar moves to the new appointment's date.
     */
    method Create(clientId: int, serviceId: int, startAt: int, notes: Option<string>,
                  reminderMinutesBefore: Option<int>, now: int, zone: Zone, fault: Option<Fault>)
        returns (crash: Option<Error>)
      requires Valid() && zone(startAt).Valid()
      modifies this, db, reminders
      ensures Valid()
      ensures AppointmentRepository.ActiveService(old(db.services), serviceId).None? ==>
        && crash == Some(NoSuchElement)
        && db.Unchanged() && unchanged(reminders) && unchanged(this)
      ensures AppointmentRepository.ActiveService(old(db.services), serviceId).Some? ==>
        var service := old(db.services)[serviceId];
        var endAt := AppointmentRepository.EndAt(startAt, service.durationMinutes);
        var id := old(db.nextAppointmentId);
        && crash.None?
        && (CountOverlaps(old(db.appointments), startAt, endAt) > 0 ==>
              messages == old(messages) + [AppointmentRepository.OVERLAP_MESSAGE]
              && db.Unchanged() && unchanged(reminders)
              && currentMonth == old(currentMonth) && selectedDate == old(selectedDate))
        && (CountOverlaps(old(db.appointments), startAt, endAt) == 0 && fault.Some? ==>
              messages == old(messages) + [if fault.value.illegalState then AppointmentRepository.OVERLAP_MESSAGE else CREATE_FAILED]
              && db.Unchanged() && unchanged(reminders)
              && currentMonth == old(currentMonth) && selectedDate == old(selectedDate))
        && (CountOverlaps(old(db.appointments), startAt, endAt) == 0 && fault.None? ==>
              && messages == old(messages) + [CREATED]
              && db.OnlyAppointmentsChanged()
              && db.appointments == Inserted(old(db.appointments), id,
                   Appointment(0, clientId, serviceId, startAt, endAt, PENDING, TrimOpt(notes)))
              && (reminderMinutesBefore.None? ==> reminders.pending == old(reminders.pending))
              && (reminderMinutesBefore.Some? ==>
                    reminders.pending == (if startAt <= now then old(reminders.pending) - {UniqueName(id)}
                                          else old(reminders.pending)[UniqueName(id) :=
                                                 WorkRequest(id, Decide(now, startAt, reminderMinutesBefore.value).initialDelayMs)]))
              && (reminderMinutesBefore.Some? ==> (reminders.PendingFor(id).Some? <==> now < startAt))
              && selectedDate == zone(startAt).Date()
              && currentMonth == MonthOf(zone(startAt).Date()))
      ensures NoOverlaps(old(db.appointments)) ==> NoOverlaps(db.appointments)
    {
      var service := AppointmentRepository.ActiveService(db.services, serviceId);
      if service.None? {
        return Some(NoSuchElement);
      }
      assert service.value.id == serviceId;
      CreateWith(clientId, service.value, startAt, notes, reminderMinutesBefore, now, zone, fault);
      return None;
    }

    /** The part of `create` that runs inside `runCatching`, once the active `service` is found. */
    method CreateWith(clientId: int, service: Service, startAt: int, notes: Option<string>,
                      reminderMinutesBefore: Option<int>, now: int, zone: Zone, fault: Option<Fault>)
      requires Valid() && zone(startAt).Valid()
      modifies this, db, reminders
      ensures Valid()
      ensures
        var endAt := AppointmentRepository.EndAt(startAt, service.durationMinutes);
        var id := old(db.nextAppointmentId);
        && (CountOverlaps(old(db.appointments), startAt, endAt) > 0 ==>
              messages == old(messages) + [AppointmentRepository.OVERLAP_MESSAGE]
              && db.Unchanged() && unchanged(reminders)
              && currentMonth == old(currentMonth) && selectedDate == old(selectedDate))
        && (CountOverlaps(old(db.appointments), startAt, endAt) == 0 && fault.Some? ==>
              messages == old(messages) + [if fault.value.illegalState then AppointmentRepository.OVERLAP_MESSAGE else CREATE_FAILED]
              && db.Unchanged() && unchanged(reminders)
              && currentMonth == old(currentMonth) && selectedDate == old(selectedDate))
        && (CountOverlaps(old(db.appointments), startAt, endAt) == 0 && fault.None? ==>
              && messages == old(messages) + [CREATED]
              && db.OnlyAppointmentsChanged()
              && db.appointments == Inserted(old(db.appointments), id,
                   Appointment(0, clientId, service.id, startAt, endAt, PENDING, TrimOpt(notes)))
              && (reminderMinutesBefore.None? ==> reminders.pending == old(reminders.pending))
              && (reminderMinutesBefore.Some? ==>
                    reminders.pending == (if startAt <= now then old(reminders.pending) - {UniqueName(id)}
                                          else old(reminders.pending)[UniqueName(id) :=
                                                 WorkRequest(id, Decide(now, startAt, reminderMinutesBefore.value).initialDelayMs)]))
              && (reminderMinutesBefore.Some? ==> (reminders.PendingFor(id).Some? <==> now < startAt))
              && selectedDate == zone(startAt).Date()
              && currentMonth == MonthOf(zone(startAt).Date()))
      ensures NoOverlaps(old(db.appointments)) ==> NoOverlaps(db.appointments)
    {
      var r := AppointmentRepository.Create(db, clientId, service, startAt, notes, fault);
      if r.Err? {
        messages := messages + [FailureMessage(r.error, CREATE_FAILED)];
        return;
      }
      Saved(CREATED, r.value, startAt, reminderMinutesBefore, now, zone);
    }

    /**
      `update(id, clientId, serviceId, startAt, notes, reminderMinutesBefore)`:
      the repository's own failures, including a missing service, become
      messages. On success the reminder is rescheduled when a lead time is
      given (even when no appointment `id` exists) and the calendar moves to
      the edited date.
     */
    method Update(id: int, clientId: int, serviceId: int, startAt: int, notes: Option<string>,
                  reminderMinutesBefore: Option<int>, now: int, zone: Zone, fault: Option<Fault>)
      requires Valid() && zone(startAt).Valid()
      modifies this, db, reminders
      ensures Valid()
      ensures AppointmentRepository.ActiveService(old(db.services), serviceId).None? ==>
        && messages == old(messages) + [UPDATE_FAILED]
        && db.Unchanged() && unchanged(reminders)
        && currentMonth == old(currentMonth) && selectedDate == old(selectedDate)
      ensures AppointmentRepository.ActiveService(old(db.services), serviceId).Some? ==>
        var endAt := AppointmentRepository.EndAt(startAt, old(db.services)[serviceId].durationMinutes);
        && (CountOverlapsExcluding(old(db.appointments), id, startAt, endAt) > 0 ==>
              messages == old(messages) + [AppointmentRepository.OVERLAP_MESSAGE]
              && db.Unchanged() && unchanged(reminders)
              && currentMonth == old(currentMonth) && selectedDate == old(selectedDate))
        && (CountOverlapsExcluding(old(db.appointments), id, startAt, endAt) == 0 && fault.Some? ==>
              messages == old(messages) + [if fault.value.illegalState then AppointmentRepository.OVERLAP_MESSAGE else UPDATE_FAILED]
              && db.Unchanged() && unchanged(reminders)
              && currentMonth == old(currentMonth) && selectedDate == old(selectedDate))
        && (CountOverlapsExcluding(old(db.appointments), id, startAt, endAt) == 0 && fault.None? ==>
              && messages == old(messages) + [SAVED]
              && db.nextAppointmentId == old(db.nextAppointmentId) && db.OnlyAppointmentsChanged()
              && db.appointments == Updated(old(db.appointments), id, clientId, serviceId, startAt, endAt, TrimOpt(notes))
              && (reminderMinutesBefore.None? ==> reminders.pending == old(reminders.pending))
              && (reminderMinutesBefore.Some? ==>
                    reminders.pending == (if startAt <= now then old(reminders.pending) - {UniqueName(id)}
                                          else old(reminders.pending)[UniqueName(id) :=
                                                 WorkRequest(id, Decide(now, startAt, reminderMinutesBefore.value).initialDelayMs)]))
              && (reminderMinutesBefore.Some? ==> (reminders.PendingFor(id).Some? <==> now < startAt))
              && selectedDate == zone(startAt).Date()
              && currentMonth == MonthOf(zone(startAt).Date()))
      ensures NoOverlaps(old(db.appointments)) ==> NoOverlaps(db.appointments)
    {
      ghost var service := AppointmentRepository.ActiveService(db.services, serviceId);
      var r := AppointmentRepository.Update(db, id, clientId, serviceId, startAt, notes, fault);
      if r.Err? {
        assert service.None? ==> r.error == NoSuchElement;
        messages := messages + [FailureMessage(r.error, UPDATE_FAILED)];
        return;
      }
      assert service.Some?;
      Saved(SAVED, id, startAt, reminderMinutesBefore, now, zone);
    }

    /**
      The `onSuccess` step shared by `create` and `update`: emit `msg`,
      (re)schedule the reminder when a lead time is given, and move the
      calendar to the appointment's local date.
     */
    method Saved(msg: string, appointmentId: int, startAt: int, reminderMinutesBefore: Option<int>, now: int, zone: Zone)
      requires Valid() && zone(startAt).Valid()
      modifies this, reminders
      ensures Valid()
      ensures messages == old(messages) + [msg]
      ensures reminderMinutesBefore.None? ==> reminders.pending == old(reminders.pending)
      ensures reminderMinutesBefore.Some? ==>
        reminders.pending == (if startAt <= now then old(reminders.pending) - {UniqueName(appointmentId)}
                              else old(reminders.pending)[UniqueName(appointmentId) :=
                                     WorkRequest(appointmentId, Decide(now, startAt, reminderMinutesBefore.value).initialDelayMs)])
      ensures reminderMinutesBefore.Some? ==> (reminders.PendingFor(appointmentId).Some? <==> now < startAt)
      ensures selectedDate == zone(startAt).Date() && currentMonth == MonthOf(zone(startAt).Date())
    {
      messages := messages + [msg];
      if reminderMinutesBefore.Some? {
        reminders.Schedule(now, appointmentId, startAt, reminderMinutesBefore.value);
      }
      var date := zone(startAt).Date();
      currentMonth := MonthOf(date);
      selectedDate := date;
    }

    /**
      `delete(id)`: cancels the appointment's reminder first, so the reminder
      is gone even when the store then fails to delete the row.
     */
    method Delete(id: int, fault: Option<Fault>)
      requires Valid()
      modifies this, db, reminders
      ensures Valid()
      ensures reminders.pending == old(reminders.pending) - {UniqueName(id)}
      ensures reminders.PendingFor(id).None?
      ensures fault.None? ==> messages == old(messages) + [DELETED] && db.appointments == Deleted(old(db.appointments), id)
                              && db.OnlyAppointmentsChanged()
      ensures fault.Some? ==> messages == old(messages) + [DELETE_FAILED] && db.Unchanged()
      ensures currentMonth == old(currentMonth) && selectedDate == old(selectedDate)
    {
      reminders.Cancel(id);
      var r := AppointmentRepository.Delete(db, id, fault);
      if r.Ok? {
        messages := messages + [DELETED];
      } else {
        messages := messages + [DELETE_FAILED];
      }
    }

    /**
      `setStatus(id, status)`: after a successful write the reminder is
      cancelled when the status is exactly "canceled" or "done", and the
      snackbar names the new status.
     */
    method SetStatus(id: int, status: string, fault: Option<Fault>)
      requires Valid()
      modifies this, db, reminders
      ensures Valid()
      ensures fault.Some? ==> messages == old(messages) + [STATUS_FAILED] && db.Unchanged() && unchanged(reminders)
      ensures fault.None? ==>
        && messages == old(messages) + ["Estado: " + StatusWord(status)]
        && db.appointments == StatusUpdated(old(db.appointments), id, status)
        && db.nextAppointmentId == old(db.nextAppointmentId) && db.OnlyAppointmentsChanged()
        && (status == CANCELED || status == DONE ==> reminders.pending == old(reminders.pending) - {UniqueName(id)})
        && (status != CANCELED && status != DONE ==> reminders.pending == old(reminders.pending))
      ensures currentMonth == old(currentMonth) && selectedDate == old(selectedDate)
    {
      var r := AppointmentRepository.SetStatus(db, id, status, fault);
      if r.Err? {
        messages := messages + [STATUS_FAILED];
        return;
      }
      if status == CANCELED || status == DONE {
        reminders.Cancel(id);
      }
      messages := messages + ["Estado: " + StatusWord(status)];
    }
  }
}

=== FILE: calendar_screen.dfy ===
/**
  The arithmetic and text of the calendar screen (ui/CalendarScreen.kt): the
  month grid, the day badge, the status label of a row, `formatHour`, and the
  WhatsApp reminder a row's menu opens. The day of the week of the month's
  first day comes from `java.time` and is the argument `firstDayOfWeek`
  (1 = Monday … 7 = Sunday); the zone is the argument `zone`.
 */
module CalendarScreen {
  import opened Text
  import opened Entities
  import opened Intents

  // ---------------------------------------------------------------------------
  // MonthGrid
  // ---------------------------------------------------------------------------

  /** `YearMonth.isLeapYear` (proleptic Gregorian). */
  predicate IsLeapYear(year: int) {
    year % 4 == 0 && (year % 100 != 0 || year % 400 == 0)
  }

  /** `YearMonth.lengthOfMonth()`. */
  function LengthOfMonth(m: YearMonth): (n: int)
    requires m.Valid()
    ensures 28 <= n <= 31
    ensures n == 28 <==> m.month == 2 && !IsLeapYear(m.year)
  {
    if m.month == 2 then (if IsLeapYear(m.year) then 29 else 28)
    else if m.month == 4 || m.month == 6 || m.month == 9 || m.month == 11 then 30
    else 31
  }

  /** `(dayOfWeek + 6) % 7`: the column of the month's first day, Monday being column 0. */
  function FirstIndex(dayOfWeek: int): (i: int)
    requires 1 <= dayOfWeek <= 7
    ensures i == dayOfWeek - 1
  {
    (dayOfWeek + 6) % 7
  }

  /** `ceil(totalCells / 7.0)`: the fewest rows of seven cells that hold `totalCells` cells. */
  function Rows(totalCells: nat): (rows: nat)
    ensures rows * 7 >= totalCells
    ensures rows == 0 || (rows - 1) * 7 < totalCells
  {
    (totalCells + 6) / 7
  }

  /** A month of 28 to 31 days starting in any column needs four to six rows. */
  lemma RowsBetweenFourAndSix(firstIndex: int, daysInMonth: int)
    requires 0 <= firstIndex < 7 && 28 <= daysInMonth <= 31
    ensures 4 <= Rows(firstIndex + daysInMonth) <= 6
  {
  }

  /** A 28-day February that starts on a Monday fills exactly four rows; 31 days starting on a Sunday need six. */
  lemma GridExtremes()
    ensures Rows(FirstIndex(1) + 28) == 4
    ensures Rows(FirstIndex(7) + 31) == 6
  {
  }

  /** One cell of the grid: blank, or a day with its count and whether it is the selected date. */
  datatype Cell = Blank | Day(date: LocalDate, count: int, selected: bool)

  /** `counts[date] ?: 0`. */
  function CountFor(counts: map<LocalDate, int>, date: LocalDate): (n: int)
    ensures date !in counts ==> n == 0
    ensures date in counts ==> n == counts[date]
  {
    if date in counts then counts[date] else 0
  }

  /**
    The cell at `index` as the grid should show it: day `d` of the month sits at
    `firstIndex + d - 1` and every other cell is blank.
   */
  function ExpectedCell(m: YearMonth, firstIndex: int, daysInMonth: int, selected: LocalDate,
                        counts: map<LocalDate, int>, index: int): Cell
  {
    if firstIndex <= index < firstIndex + daysInMonth then
      var date := LocalDate(m.year, m.month, index - firstIndex + 1);
      Day(date, CountFor(counts, date), date == selected)
    else Blank
  }

  /** How many day cells come before position `c`. */
  function DaysBefore(firstIndex: int, daysInMonth: int, c: int): int {
    if c <= firstIndex then 0
    else if c - firstIndex >= daysInMonth then daysInMonth
    else c - firstIndex
  }

  /**
    `MonthGrid(month, selected, counts)`: walks the rows and columns, placing
    the next day number in each cell from the first day's column on until the
    month runs out.
   */
  method MonthGrid(month: YearMonth, firstDayOfWeek: int, selected: LocalDate, counts: map<LocalDate, int>)
      returns (cells: seq<Cell>)
    requires month.Valid() && 1 <= firstDayOfWeek <= 7
    ensures |cells| == 7 * Rows(FirstIndex(firstDayOfWeek) + LengthOfMonth(month))
    ensures forall i | 0 <= i < |cells| ::
      cells[i] == ExpectedCell(month, FirstIndex(firstDayOfWeek), LengthOfMonth(month), selected, counts, i)
  {
    var firstIndex := FirstIndex(firstDayOfWeek);
    var daysInMonth := LengthOfMonth(month);
    var totalCells := firstIndex + daysInMonth;
    var rows := Rows(totalCells);

    cells := [];
    var dayNum := 1;
    var row := 0;
    while row < rows
      invariant 0 <= row <= rows
      invariant |cells| == 7 * row
      invariant dayNum == 1 + DaysBefore(firstIndex, daysInMonth, |cells|)
      invariant forall i | 0 <= i < |cells| :: cells[i] == ExpectedCell(month, firstIndex, daysInMonth, selected, counts, i)
    {
      var col := 0;
      while col < 7
        invariant 0 <= col <= 7
        invariant |cells| == 7 * row + col
        invariant dayNum == 1 + DaysBefore(firstIndex, daysInMonth, |cells|)
        invariant forall i | 0 <= i < |cells| :: cells[i] == ExpectedCell(month, firstIndex, daysInMonth, selected, counts, i)
      {
        var cellIndex := col + 7 * row;
        var isBlank := cellIndex < firstIndex || dayNum > daysInMonth;
        if !isBlank {
          var date := LocalDate(month.year, month.month, dayNum);
          cells := cells + [Day(date, CountFor(counts, date), date == selected)];
          dayNum := dayNum + 1;
        } else {
          cells := cells + [Blank];
        }
        col := col + 1;
      }
      row := row + 1;
    }
    assert totalCells <= |cells|;
  }

  /** The cell that holds day `d` of the month. */
  function DayIndex(firstIndex: int, d: int): int {
    firstIndex + d - 1
  }

  /**
    Every day of the month has a cell showing that date, and day numbers grow
    from cell to cell, so no day appears twice.
   */
  lemma EachDayOnce(m: YearMonth, firstIndex: int, daysInMonth: int, selected: LocalDate, counts: map<LocalDate, int>)
    ensures forall d | 1 <= d <= daysInMonth ::
      && ExpectedCell(m, firstIndex, daysInMonth, selected, counts, DayIndex(firstIndex, d)).Day?
      && ExpectedCell(m, firstIndex, daysInMonth, selected, counts, DayIndex(firstIndex, d)).date == LocalDate(m.year, m.month, d)
    ensures forall i, j | i < j &&
        ExpectedCell(m, firstIndex, daysInMonth, selected, counts, i).Day? &&
        ExpectedCell(m, firstIndex, daysInMonth, selected, counts, j).Day? ::
      ExpectedCell(m, firstIndex, daysInMonth, selected, counts, i).date.day <
      ExpectedCell(m, firstIndex, daysInMonth, selected, counts, j).date.day
  {
  }

  // ---------------------------------------------------------------------------
  // DayCell badge
  // ---------------------------------------------------------------------------

  /** The badge under a day number: none for no appointments, "9+" above nine, else the count. */
  function Badge(count: int): (r: Option<string>)
    ensures r.Some? <==> count > 0
    ensures count > 9 ==> r == Some("9+")
    ensures 0 < count <= 9 ==> |r.value| == 1 && IsAsciiDigit(r.value[0]) && ParseDigits(r.value) == count
  {
    if count > 0 then
      Some(if count > 9 then "9+" else
        NatToDecimalRoundTrip(count);
        IntToDecimal(count))
    else None
  }

  // ---------------------------------------------------------------------------
  // AppointmentRow: status label, formatHour, WhatsApp reminder
  // ---------------------------------------------------------------------------

  /**
    The label shown for a stored status: matched after lowercasing, with two
    spellings for each known status, and the raw status for anything else.
   */
  function StatusLabel(status: string): (text: string)
    ensures var key := Lowercase(status);
      && (key == "pending" || key == "scheduled" ==> text == "Pendiente")
      && (key == "done" ==> text == "Realizado")
      && (key == "canceled" || key == "cancelled" ==> text == "Cancelado")
      && (key == "no_show" || key == "ausente" ==> text == "Ausente")
      && (key !in {"pending", "scheduled", "done", "canceled", "cancelled", "no_show", "ausente"} ==> text == status)
  {
    var key := Lowercase(status);
    if key == "pending" || key == "scheduled" then "Pendiente"
    else if key == "done" then "Realizado"
    else if key == "canceled" || key == "cancelled" then "Cancelado"
    else if key == "no_show" || key == "ausente" then "Ausente"
    else status
  }

  /** The text does not depend on letter case: "DONE", "Done" and "done" all read "Realizado". */
  lemma StatusLabelIgnoresCase()
    ensures StatusLabel("DONE") == StatusLabel("Done") == StatusLabel("done") == "Realizado"
    ensures StatusLabel("Cancelled") == StatusLabel("canceled") == "Cancelado"
  {
    assert Lowercase("DONE") == "done";
    assert Lowercase("Done") == "done";
    assert Lowercase("done") == "done";
    assert Lowercase("Cancelled") == "cancelled";
    assert Lowercase("canceled") == "canceled";
  }

  /** `formatHour(startAtMillis)`: the local time of the instant as "HH:mm". */
  function FormatHour(startAt: int, zone: Zone): (r: string)
    ensures zone(startAt).Valid() ==>
      && |r| == 5 && r[2] == ':'
      && (forall k | 0 <= k < 5 && k != 2 :: IsAsciiDigit(r[k]))
      && ParseDigits(r[..2]) == zone(startAt).hour && ParseDigits(r[3..]) == zone(startAt).minute
  {
    var t := zone(startAt);
    assert t.Valid() ==> var c := ClockText(t.hour, t.minute);
      |c| == 5 && c[2] == ':' && (forall k | 0 <= k < 5 && k != 2 :: IsAsciiDigit(c[k])) && ParseDigits(c[..2]) == t.hour && ParseDigits(c[3..]) == t.minute by {
      if t.Valid() {
        ClockTextRoundTrip(t.hour, t.minute);
      }
    }
    ClockText(t.hour, t.minute)
  }

  /** Kotlin's `isNullOrBlank()`: null, or nothing but whitespace. */
  predicate IsNullOrBlank(s: Option<string>) {
    s.None? || forall k | 0 <= k < |s.value| :: IsWhitespace(s.value[k])
  }

  /** A nullable value in a string template: null prints as "null". */
  function Template(s: Option<string>): string {
    if s.Some? then s.value else "null"
  }

  /** The reminder message of the row's "Recordatorio WhatsApp" item. */
  function WhatsAppMessage(ap: AppointmentUi, zone: Zone): string {
    var at := zone(ap.appointment.startAt);
    "Hola " + ap.clientName + ", te recuerdo " + Template(ap.serviceName)
      + " el " + DateText(at.day, at.month, at.year) + " a las " + ClockText(at.hour, at.minute)
      + ". Si necesitás cambiar el horario, avisame por acá \U{1F642}"
  }

  /**
    The link the row's "Recordatorio WhatsApp" item opens: none when the item is
    disabled (no phone, or a blank one); otherwise the chat link for the
    filtered phone, which `openWhatsApp` filters once more.
   */
  function RowWhatsAppLink(ap: AppointmentUi, zone: Zone, encode: string -> string): (url: Option<string>)
    ensures url.None? <==> IsNullOrBlank(ap.clientPhone)
    ensures url.Some? ==>
      SplitQuery(url.value) == Some((WA_PREFIX + SanitizePhone(ap.clientPhone.value), "text=" + encode(WhatsAppMessage(ap, zone))))
  {
    if IsNullOrBlank(ap.clientPhone) then None
    else
      var phone := SanitizePhone(ap.clientPhone.value);
      SanitizeIdempotent(ap.clientPhone.value);
      UrlSplitsAtTextParam(phone, WhatsAppMessage(ap, zone), encode);
      Some(OpenWhatsApp(phone, WhatsAppMessage(ap, zone), encode))
  }
}

=== FILE: client_repository.dfy ===
/**
  The client repository (data/ClientRepository.kt): every text input is
  trimmed (a null phone or note stays null), `update` does nothing for an
  unknown key, and `delete` removes only the given row. The clock reading that
  fills `createdAt` is the argument `now`.
 */
module ClientRepository {
  import opened Text
  import opened Entities
  import opened Store

  /** `add(name, phone, notes)`: inserts one client with trimmed fields, created at `now`. */
  method Add(db: Db, name: string, phone: Option<string>, notes: Option<string>, now: int, fault: Option<Fault>)
      returns (r: Result<()>)
    requires db.Valid()
    modifies db
    ensures db.Valid()
    ensures fault.Some? ==> r == Err(StoreFailure(fault.value)) && db.Unchanged()
    ensures fault.None? ==>
      && r == Ok(())
      && old(db.nextClientId) !in old(db.clients)
      && db.clients == old(db.clients)[old(db.nextClientId) :=
           Client(old(db.nextClientId), Trim(name), TrimOpt(phone), TrimOpt(notes), now)]
      && db.OnlyClientsChanged()
  {
    if fault.Some? {
      return Err(StoreFailure(fault.value));
    }
    var _ := db.InsertClient(Client(0, Trim(name), TrimOpt(phone), TrimOpt(notes), now));
    return Ok(());
  }

  /**
    `update(id, name, phone, notes)`: when client `id` exists, replaces its name,
    phone and notes with the trimmed inputs and keeps its key and creation time;
    otherwise does nothing.
   */
  method Update(db: Db, id: int, name: string, phone: Option<string>, notes: Option<string>, fault: Option<Fault>)
      returns (r: Result<()>)
    requires db.Valid()
    modifies db
    ensures db.Valid()
    ensures id !in old(db.clients) ==> r == Ok(()) && db.Unchanged()
    ensures id in old(db.clients) && fault.Some? ==> r == Err(StoreFailure(fault.value)) && db.Unchanged()
    ensures id in old(db.clients) && fault.None? ==>
      && r == Ok(())
      && db.clients == old(db.clients)[id := Client(id, Trim(name), TrimOpt(phone), TrimOpt(notes), old(db.clients)[id].createdAt)]
      && db.nextClientId == old(db.nextClientId)
      && db.OnlyClientsChanged()
  {
    if id !in db.clients {
      return Ok(());
    }
    var current := db.clients[id];
    if fault.Some? {
      return Err(StoreFailure(fault.value));
    }
    db.UpdateClient(current.(name := Trim(name), phone := TrimOpt(phone), notes := TrimOpt(notes)));
    return Ok(());
  }

  /** `delete(id)`: removes client `id` and no other. */
  method Delete(db: Db, id: int, fault: Option<Fault>) returns (r: Result<()>)
    requires db.Valid()
    modifies db
    ensures db.Valid()
    ensures fault.Some? ==> r == Err(StoreFailure(fault.value)) && db.Unchanged()
    ensures fault.None? ==> r == Ok(()) && db.clients == old(db.clients) - {id}
                            && db.nextClientId == old(db.nextClientId) && db.OnlyClientsChanged()
  {
    if fault.Some? {
      return Err(StoreFailure(fault.value));
    }
    db.DeleteClient(id);
    return Ok(());
  }
}

=== FILE: clients_ui.dfy ===
/**
  The clients screen's view model (ui/theme/ClientsViewModel.kt): each action
  emits exactly one snackbar message, and a client that still has appointments
  is never deleted. The store has no foreign keys, so that guard is what keeps
  every appointment's client present.
 */
module ClientsUi {
  import opened Entities
  import opened AppointmentDao
  import opened Store
  import opened Text
  import ClientRepository

  const CREATED: string := "Cliente creado"
  const SAVED: string := "Cambios guardados"
  const DELETED: string := "Cliente eliminado"
  const IN_USE: string := "No se puede eliminar: el cliente tiene turnos"

  /** Every appointment names a stored client. */
  predicate ClientsResolve(t: Table, clients: map<int, Client>) {
    forall k | k in t :: t[k].clientId in clients
  }

  /** Deleting a client no appointment names keeps every appointment's client present. */
  lemma GuardedDeleteKeepsClientsResolved(t: Table, clients: map<int, Client>, id: int)
    requires ClientsResolve(t, clients) && CountByClient(t, id) == 0
    ensures ClientsResolve(t, clients - {id})
  {
    forall k | k in t
      ensures t[k].clientId in clients - {id}
    {
      assert t[k].clientId != id;
    }
  }

  /** Without the guard, deleting a client that has appointments leaves them pointing at nothing. */
  lemma UnguardedDeleteOrphans(t: Table, clients: map<int, Client>, id: int)
    requires CountByClient(t, id) > 0
    ensures !ClientsResolve(t, clients - {id})
  {
    var k :| k in t && t[k].clientId == id;
    assert t[k].clientId !in clients - {id};
  }

  class ClientsViewModel {
    const db: Db
    /** The snackbar messages emitted so far, oldest first. */
    var messages: seq<string>

    predicate Valid()
      reads this, db
    {
      db.Valid()
    }

    constructor (db: Db)
      requires db.Valid()
      ensures Valid() && this.db == db && messages == []
    {
      this.db := db;
      messages := [];
    }

    /** `add(name, phone, notes)`. */
    method Add(name: string, phone: Option<string>, notes: Option<string>, now: int, fault: Option<Fault>)
      requires Valid()
      modifies this, db
      ensures Valid()
      ensures fault.None? ==>
        && messages == old(messages) + [CREATED]
        && db.clients == old(db.clients)[old(db.nextClientId) :=
             Client(old(db.nextClientId), Trim(name), TrimOpt(phone), TrimOpt(notes), now)]
        && db.OnlyClientsChanged()
      ensures fault.Some? ==>
        && messages == old(messages) + ["Error al crear: " + StoreFailure(fault.value).MessageOrUnknown()]
        && db.Unchanged()
    {
      var r := ClientRepository.Add(db, name, phone, notes, now, fault);
      if r.Ok? {
        messages := messages + [CREATED];
      } else {
        messages := messages + ["Error al crear: " + r.error.MessageOrUnknown()];
      }
    }

    /** `update(id, name, phone, notes)`: reports success also when no client `id` exists. */
    method Update(id: int, name: string, phone: Option<string>, notes: Option<string>, fault: Option<Fault>)
      requires Valid()
      modifies this, db
      ensures Valid()
      ensures id !in old(db.clients) ==> messages == old(messages) + [SAVED] && db.Unchanged()
      ensures id in old(db.clients) && fault.None? ==>
        && messages == old(messages) + [SAVED]
        && db.clients == old(db.clients)[id := Client(id, Trim(name), TrimOpt(phone), TrimOpt(notes), old(db.clients)[id].createdAt)]
        && db.OnlyClientsChanged()
      ensures id in old(db.clients) && fault.Some? ==>
        && messages == old(messages) + ["Error al editar: " + StoreFailure(fault.value).MessageOrUnknown()]
        && db.Unchanged()
    {
      var r := ClientRepository.Update(db, id, name, phone, notes, fault);
      if r.Ok? {
        messages := messages + [SAVED];
      } else {
        messages := messages + ["Error al editar: " + r.error.MessageOrUnknown()];
      }
    }

    /** `delete(id)`: refuses a client with appointments, otherwise deletes it. */
    method Delete(id: int, fault: Option<Fault>)
      requires Valid()
      modifies this, db
      ensures Valid()
      ensures CountByClient(old(db.appointments), id) > 0 ==> messages == old(messages) + [IN_USE] && db.Unchanged()
      ensures CountByClient(old(db.appointments), id) == 0 && fault.None? ==>
        && messages == old(messages) + [DELETED]
        && db.clients == old(db.clients) - {id}
        && db.OnlyClientsChanged()
      ensures CountByClient(old(db.appointments), id) == 0 && fault.Some? ==>
        && messages == old(messages) + ["Error al eliminar: " + StoreFailure(fault.value).MessageOrUnknown()]
        && db.Unchanged()
      ensures ClientsResolve(old(db.appointments), old(db.clients)) ==> ClientsResolve(db.appointments, db.clients)
    {
      var inUse := CountByClient(db.appointments, id) > 0;
      if inUse {
        messages := messages + [IN_USE];
        return;
      }
      ghost var before := db.appointments;
      ghost var clientsBefore := db.clients;
      var r := ClientRepository.Delete(db, id, fault);
      if r.Ok? {
        messages := messages + [DELETED];
        if ClientsResolve(before, clientsBefore) {
          GuardedDeleteKeepsClientsResolved(before, clientsBefore, id);
        }
      } else {
        messages := messages + ["Error al eliminar: " + r.error.MessageOrUnknown()];
      }
    }
  }
}

=== FILE: entities.dfy ===
/**
  The rows of the three tables (clients, services, appointments), the read
  projection the calendar lists, and the `java.time` values the screens use.
  Kotlin `Long` and `Int` are unbounded `int` here; `Double` prices are `real`
  and no operation of the model computes with them.
 */
module Entities {
  import opened Text

  /** Status strings the application writes. Any other string may be stored too. */
  const PENDING: string := "pending"
  const DONE: string := "done"
  const CANCELED: string := "canceled"

  const MILLIS_PER_MINUTE: int := 60000

  datatype Appointment = Appointment(
    id: int,
    clientId: int,
    serviceId: int,
    startAt: int,        // epoch milliseconds
    endAt: int,          // startAt + the service's duration when written
    status: string,
    notes: Option<string>)

  datatype Client = Client(
    id: int,
    name: string,
    phone: Option<string>,
    notes: Option<string>,
    createdAt: int)

  datatype Service = Service(
    id: int,
    name: string,
    durationMinutes: int,
    price: real,
    active: bool)

  /** A row of the joined calendar queries: an appointment with its client's and service's columns. */
  datatype AppointmentUi = AppointmentUi(
    appointment: Appointment,
    clientName: string,
    serviceName: Option<string>,
    clientPhone: Option<string>,
    servicePrice: Option<real>)

  /** One group of the per-day count query. */
  datatype DayCount = DayCount(day: int, count: nat)

  /**
    An exception raised by the embedded store itself (disk, SQLite); `message`
    may be null, and `illegalState` says whether its class is an
    `IllegalStateException` (as for a write on an already-closed database).
   */
  datatype Fault = Fault(message: Option<string>, illegalState: bool)

  /**
    The exceptions the repositories let escape: the overlap guard's
    `IllegalStateException`, the `NoSuchElementException` of a failed
    `first { it.id == serviceId }`, and whatever the store throws.
   */
  datatype Error =
    | IllegalState(reason: string)
    | NoSuchElement
    | StoreFailure(fault: Fault)
  {
    /** `Throwable.message`. */
    function Message(): Option<string> {
      match this
      case IllegalState(m) => Some(m)
      case NoSuchElement => Some("Collection contains no element matching the predicate.")
      case StoreFailure(f) => f.message
    }

    /** `e is IllegalStateException`: the overlap guard's refusal, or a store exception of that class. */
    predicate IsIllegalState() {
      IllegalState? || (StoreFailure? && fault.illegalState)
    }

    /** `message ?: "desconocido"`, as the client and service screens report a failure. */
    function MessageOrUnknown(): (text: string)
      ensures Message().Some? ==> text == Message().value
      ensures Message().None? ==> text == "desconocido"
    {
      if Message().Some? then Message().value else "desconocido"
    }
  }

  /** What a `suspend` repository call yields: its value, or the exception it threw. */
  datatype Result<T> = Ok(value: T) | Err(error: Error)

  // ---------------------------------------------------------------------------
  // java.time values
  // ---------------------------------------------------------------------------

  datatype LocalDate = LocalDate(year: int, month: int, day: int)

  datatype YearMonth = YearMonth(year: int, month: int) {
    predicate Valid() { 1 <= month <= 12 }
  }

  /** An instant seen in the device's zone. */
  datatype LocalDateTime = LocalDateTime(year: int, month: int, day: int, hour: int, minute: int) {
    predicate Valid() { 1 <= month <= 12 && 1 <= day <= 31 && 0 <= hour < 24 && 0 <= minute < 60 }
    function Date(): LocalDate { LocalDate(year, month, day) }
  }

  /** The device's time zone: which local date and time an epoch-millisecond instant falls on. */
  type Zone = int -> LocalDateTime
}

=== FILE: intents.dfy ===
/**
  `openWhatsApp` (util/Intents.kt): the phone keeps only its digits and '+'
  signs, and the chat link is "https://wa.me/<phone>?text=<encoded message>".
  `URLEncoder.encode` is the argument `encode`; starting the activity is not
  part of this model.
 */
module Intents {
  import opened Text

  const WA_PREFIX: string := "https://wa.me/"
  const TEXT_PARAM: string := "?text="

  /** The characters the phone filter keeps. */
  predicate PhoneChar(c: char) {
    IsAsciiDigit(c) || c == '+'
  }

  /** `phoneRaw.filter { it.isDigit() || it == '+' }`. */
  function SanitizePhone(raw: string): (r: string)
    ensures |r| <= |raw|
    ensures forall k | 0 <= k < |r| :: PhoneChar(r[k])
  {
    if raw == [] then []
    else (if PhoneChar(raw[0]) then [raw[0]] else []) + SanitizePhone(raw[1..])
  }

  /** Filtering a concatenation filters each part: the kept characters keep their order. */
  lemma {:induction false} SanitizeConcat(a: string, b: string)
    ensures SanitizePhone(a + b) == SanitizePhone(a) + SanitizePhone(b)
  {
    if a == [] {
      assert a + b == b;
    } else {
      assert (a + b)[0] == a[0];
      assert (a + b)[1..] == a[1..] + b;
      SanitizeConcat(a[1..], b);
    }
  }

  /** A single character is kept exactly when it is a digit or '+'. */
  lemma SanitizeChar(c: char)
    ensures SanitizePhone([c]) == if PhoneChar(c) then [c] else []
  {
    assert [c][1..] == [];
  }

  /** A phone made only of digits and '+' passes the filter unchanged. */
  lemma {:induction false} SanitizeKeepsClean(s: string)
    requires forall k | 0 <= k < |s| :: PhoneChar(s[k])
    ensures SanitizePhone(s) == s
  {
    if s != [] {
      SanitizeKeepsClean(s[1..]);
    }
  }

  /** Filtering twice is filtering once. */
  lemma SanitizeIdempotent(raw: string)
    ensures SanitizePhone(SanitizePhone(raw)) == SanitizePhone(raw)
  {
    SanitizeKeepsClean(SanitizePhone(raw));
  }

  /** `openWhatsApp(ctx, phoneRaw, msg)`: the link it opens. */
  function OpenWhatsApp(phoneRaw: string, msg: string, encode: string -> string): (url: string)
    ensures |url| == |WA_PREFIX| + |SanitizePhone(phoneRaw)| + |TEXT_PARAM| + |encode(msg)|
    ensures url[..|WA_PREFIX|] == WA_PREFIX
  {
    var phone := SanitizePhone(phoneRaw);
    WA_PREFIX + phone + TEXT_PARAM + encode(msg)
  }

  /** The position of the first `c` in `s`, if any. */
  function IndexOf(s: string, c: char): (r: Option<nat>)
    ensures r.Some? ==> r.value < |s| && s[r.value] == c && forall k | 0 <= k < r.value :: s[k] != c
    ensures r.None? ==> forall k | 0 <= k < |s| :: s[k] != c
  {
    if s == [] then None
    else if s[0] == c then Some(0)
    else
      var rest := IndexOf(s[1..], c);
      if rest.Some? then Some(rest.value + 1) else None
  }

  /** Splits a link at its first '?' into the part before it and the query after it. */
  function SplitQuery(url: string): (r: Option<(string, string)>)
    ensures r.Some? ==> url == r.value.0 + "?" + r.value.1
  {
    match IndexOf(url, '?')
    case None => None
    case Some(i) =>
      assert url == url[..i] + "?" + url[i + 1..] by {
        assert url[..i] + [url[i]] + url[i + 1..] == url;
      }
      Some((url[..i], url[i + 1..]))
  }

  /**
    A filtered phone has no '?', so the first '?' of the link is the one that
    opens the `text` parameter: splitting there gives back the phone and the
    encoded message.
   */
  lemma UrlSplitsAtTextParam(phoneRaw: string, msg: string, encode: string -> string)
    ensures SplitQuery(OpenWhatsApp(phoneRaw, msg, encode)) == Some((WA_PREFIX + SanitizePhone(phoneRaw), "text=" + encode(msg)))
  {
    var phone := SanitizePhone(phoneRaw);
    var url := OpenWhatsApp(phoneRaw, msg, encode);
    var head := WA_PREFIX + phone;
    assert url == head + TEXT_PARAM + encode(msg);
    assert forall k | 0 <= k < |head| :: head[k] != '?' by {
      forall k | 0 <= k < |head| ensures head[k] != '?' {
        if k >= |WA_PREFIX| {
          assert head[k] == phone[k - |WA_PREFIX|];
          assert PhoneChar(phone[k - |WA_PREFIX|]);
        }
      }
    }
    assert url[|head|] == '?';
    IndexOfFirst(url, '?', |head|);
    assert url[..|head|] == head;
    assert url[|head| + 1..] == "text=" + encode(msg);
  }

  /** When position `i` holds the first `c`, `IndexOf` finds it there. */
  lemma {:induction false} IndexOfFirst(s: string, c: char, i: nat)
    requires i < |s| && s[i] == c && forall k | 0 <= k < i :: s[k] != c
    ensures IndexOf(s, c) == Some(i)
  {
    if i > 0 {
      IndexOfFirst(s[1..], c, i - 1);
    }
  }
}

=== FILE: ordered_keys.dfy ===
/** Integer key sets listed in ascending order, the way the store returns rows with ties broken by id. */
module OrderedKeys {
  /** The least element of a set of integers that holds `x`. */
  ghost function Minimum(s: set<int>, x: int): (m: int)
    requires x in s
    ensures m in s && m <= x
    ensures forall y | y in s :: m <= y
    decreases |s|
  {
    var below := set y | y in s && y < x;
    if below == {} then
      assert forall y | y in s :: x <= y by {
        forall y | y in s ensures x <= y {
          assert y < x ==> y in below;
        }
      }
      x
    else
      var z :| z in below;
      assert |below| < |s| by {
        assert s == below + (s - below);
        assert x in s - below;
      }
      var m := Minimum(below, z);
      assert forall y | y in s :: m <= y by {
        forall y | y in s ensures m <= y {
          if y < x { assert y in below; }
        }
      }
      m
  }

  /** A set of positive size has an element. */
  lemma NonEmpty(s: set<int>)
    requires |s| != 0
    ensures exists x :: x in s
  {
    assert (forall x :: x !in s) ==> s == {};
  }

  /** The keys of a set in ascending order. */
  ghost function SortedKeys(s: set<int>): (r: seq<int>)
    ensures |r| == |s|
    ensures forall x :: x in r <==> x in s
    ensures forall i | 0 <= i < |r| :: r[i] in s
    ensures forall i, j | 0 <= i < j < |r| :: r[i] < r[j]
    decreases |s|
  {
    if |s| == 0 then []
    else
      NonEmpty(s);
      var x :| x in s;
      var m := Minimum(s, x);
      var rest := SortedKeys(s - {m});
      PrependMinimum(s, m, rest);
      [m] + rest
  }

  /** Putting the least element in front of the ordered rest orders the whole set. */
  lemma PrependMinimum(s: set<int>, m: int, rest: seq<int>)
    requires m in s && forall y | y in s :: m <= y
    requires |rest| == |s - {m}|
    requires forall x :: x in rest <==> x in s - {m}
    requires forall i, j | 0 <= i < j < |rest| :: rest[i] < rest[j]
    ensures |[m] + rest| == |s|
    ensures forall x :: x in [m] + rest <==> x in s
    ensures forall i | 0 <= i < |[m] + rest| :: ([m] + rest)[i] in s
    ensures forall i, j | 0 <= i < j < |[m] + rest| :: ([m] + rest)[i] < ([m] + rest)[j]
  {
    var r := [m] + rest;
    forall i | 0 <= i < |rest| ensures m < rest[i] {
      assert rest[i] in rest;
    }
    forall i | 0 <= i < |r| ensures r[i] in s {
      if i > 0 { assert r[i] == rest[i - 1]; assert rest[i - 1] in rest; }
    }
  }
}

=== FILE: reminder_scheduler.dfy ===
/**
  The reminder scheduler (work/ReminderScheduler.kt). WorkManager's queue of
  unique work is a map from unique-work name to the pending request; the clock
  reading is the argument `now`. `schedule` either cancels (the appointment has
  started) or enqueues one request with `ExistingWorkPolicy.REPLACE`.
 */
module ReminderScheduler {
  import opened Text
  import opened Entities

  const NAME_PREFIX: string := "appointment_reminder_"

  /** The delay used when the reminder time has already passed but the appointment has not. */
  const FALLBACK_DELAY_MS: int := 5000

  /** `uniqueName(appointmentId)`: the prefix followed by `Long.toString()` of the id. */
  function UniqueName(appointmentId: int): (n: string)
    ensures |n| > |NAME_PREFIX| && n[..|NAME_PREFIX|] == NAME_PREFIX
    ensures n[|NAME_PREFIX|..] == IntToDecimal(appointmentId)
  {
    NAME_PREFIX + IntToDecimal(appointmentId)
  }

  /** Distinct appointments get distinct unique-work names. */
  lemma UniqueNameInjective(a: int, b: int)
    ensures UniqueName(a) == UniqueName(b) ==> a == b
  {
    if UniqueName(a) == UniqueName(b) {
      assert IntToDecimal(a) == UniqueName(a)[|NAME_PREFIX|..];
      IntToDecimalInjective(a, b);
    }
  }

  /** `triggerAt`: the instant the reminder is meant for. */
  function TriggerAt(startAt: int, minutesBefore: int): (t: int)
    ensures minutesBefore > 0 ==> t < startAt
    ensures startAt - t == minutesBefore * MILLIS_PER_MINUTE
  {
    startAt - minutesBefore * MILLIS_PER_MINUTE
  }

  /** What `schedule` does: only cancel, or enqueue a request after the given delay. */
  datatype Decision = CancelOnly | Enqueue(initialDelayMs: int)

  /**
    The decision of `schedule(appointmentId, startAt, minutesBefore)` at `now`:
    cancel when the appointment has started; otherwise wait until the trigger
    instant, or 5 s when that instant is not in the future, and never less than 1 ms.
   */
  function Decide(now: int, startAt: int, minutesBefore: int): (d: Decision)
    ensures d.CancelOnly? <==> startAt <= now
    ensures d.Enqueue? ==> d.initialDelayMs >= 1
    ensures d.Enqueue? && now < TriggerAt(startAt, minutesBefore) ==> now + d.initialDelayMs == TriggerAt(startAt, minutesBefore)
    ensures d.Enqueue? && TriggerAt(startAt, minutesBefore) <= now ==> d.initialDelayMs == FALLBACK_DELAY_MS
  {
    if startAt <= now then CancelOnly
    else
      var delayMs := TriggerAt(startAt, minutesBefore) - now;
      var effectiveDelayMs := if delayMs <= 0 then FALLBACK_DELAY_MS else delayMs;
      Enqueue(Max(1, effectiveDelayMs))
  }

  function Max(a: int, b: int): int { if a < b then b else a }

  /**
    The `max(1, …)` clamp never changes the delay: the effective delay is
    either the 5 s fallback or a positive whole number of milliseconds.
   */
  lemma ClampIsInactive(now: int, startAt: int, minutesBefore: int)
    requires now < startAt
    ensures var delayMs := TriggerAt(startAt, minutesBefore) - now;
            Decide(now, startAt, minutesBefore) == Enqueue(if delayMs <= 0 then FALLBACK_DELAY_MS else delayMs)
  {
  }

  /**
    With a non-negative lead time, a reminder on the normal path fires no later
    than the appointment's start; on the fallback path it fires 5 s after `now`,
    which is after the start when fewer than 5 s remain.
   */
  lemma FiringTime(now: int, startAt: int, minutesBefore: int)
    requires now < startAt && 0 <= minutesBefore
    ensures now < TriggerAt(startAt, minutesBefore) ==> now + Decide(now, startAt, minutesBefore).initialDelayMs <= startAt
    ensures TriggerAt(startAt, minutesBefore) <= now ==> now + Decide(now, startAt, minutesBefore).initialDelayMs == now + FALLBACK_DELAY_MS
    ensures TriggerAt(startAt, minutesBefore) <= now && startAt - now < FALLBACK_DELAY_MS ==>
              now + Decide(now, startAt, minutesBefore).initialDelayMs > startAt
  {
  }

  /** A pending one-time request for `ReminderWorker` with its input data. */
  datatype WorkRequest = WorkRequest(appointmentId: int, initialDelayMs: int)

  /** The unique-work queue as far as reminders use it. */
  class WorkQueue {
    var pending: map<string, WorkRequest>

    /** Every pending request sits under its appointment's unique name, with a positive delay. */
    predicate Valid()
      reads this
    {
      forall n | n in pending :: n == UniqueName(pending[n].appointmentId) && pending[n].initialDelayMs >= 1
    }

    constructor ()
      ensures Valid() && pending == map[]
    {
      pending := map[];
    }

    /** The pending reminder of an appointment, if any. */
    function PendingFor(appointmentId: int): (r: Option<WorkRequest>)
      reads this
      ensures r.Some? <==> UniqueName(appointmentId) in pending
      ensures r.Some? && Valid() ==> r.value.appointmentId == appointmentId
    {
      if UniqueName(appointmentId) in pending then
        UniqueNameInjective(pending[UniqueName(appointmentId)].appointmentId, appointmentId);
        Some(pending[UniqueName(appointmentId)])
      else None
    }

    /** `cancel(appointmentId)`: `cancelUniqueWork(uniqueName(appointmentId))`. */
    method Cancel(appointmentId: int)
      requires Valid()
      modifies this
      ensures Valid()
      ensures pending == old(pending) - {UniqueName(appointmentId)}
      ensures PendingFor(appointmentId).None?
      ensures forall other | other != appointmentId :: PendingFor(other) == old(PendingFor(other))
    {
      pending := pending - {UniqueName(appointmentId)};
      forall other | other != appointmentId
        ensures UniqueName(other) != UniqueName(appointmentId)
      {
        UniqueNameInjective(other, appointmentId);
      }
    }

    /**
      `schedule(appointmentId, startAt, minutesBefore)` at `now`: cancels when the
      appointment has started, otherwise replaces any pending reminder of the
      appointment by one after the decided delay. Other appointments' reminders
      are untouched either way.
     */
    method Schedule(now: int, appointmentId: int, startAt: int, minutesBefore: int)
      requires Valid()
      modifies this
      ensures Valid()
      ensures Decide(now, startAt, minutesBefore).CancelOnly? ==> pending == old(pending) - {UniqueName(appointmentId)}
      ensures Decide(now, startAt, minutesBefore).Enqueue? ==>
        pending == old(pending)[UniqueName(appointmentId) :=
          WorkRequest(appointmentId, Decide(now, startAt, minutesBefore).initialDelayMs)]
      ensures startAt <= now <==> PendingFor(appointmentId).None?
      ensures forall other | other != appointmentId :: PendingFor(other) == old(PendingFor(other))
    {
      var d := Decide(now, startAt, minutesBefore);
      if d.CancelOnly? {
        Cancel(appointmentId);
        return;
      }
      pending := pending[UniqueName(appointmentId) := WorkRequest(appointmentId, d.initialDelayMs)];
      forall other | other != appointmentId
        ensures UniqueName(other) != UniqueName(appointmentId)
      {
        UniqueNameInjective(other, appointmentId);
      }
    }
  }

  /** In a valid queue an appointment has at most one pending reminder. */
  lemma AtMostOnePerAppointment(pending: map<string, WorkRequest>, appointmentId: int)
    requires forall n | n in pending :: n == UniqueName(pending[n].appointmentId)
    ensures |set n | n in pending && pending[n].appointmentId == appointmentId| <= 1
  {
    var names := set n | n in pending && pending[n].appointmentId == appointmentId;
    assert names <= {UniqueName(appointmentId)};
    if UniqueName(appointmentId) in names {
      assert names == {UniqueName(appointmentId)};
    } else {
      assert names == {};
    }
  }
}

=== FILE: reminder_worker.dfy ===
/**
  The reminder worker (work/ReminderWorker.kt): given the appointment id in its
  input data, it reads the appointment and its client and service and posts one
  notification. The zone that turns `startAt` into a local date and time is the
  argument `zone`; posting is the returned `Notification`.
 */
module ReminderWorker {
  import opened Text
  import opened Entities
  import opened Store

  const TITLE: string := "Recordatorio de turno"

  /** The result kinds of a `ListenableWorker`. */
  datatype WorkResult = Success | Retry | Failure

  /** A notification as `Notifications.showAppointmentReminder` receives it. */
  datatype Notification = Notification(notifId: int, title: string, text: string)

  const TWO_32: int := 0x1_0000_0000
  const TWO_31: int := 0x8000_0000

  /** Kotlin `Long.toInt()`: keeps the low 32 bits, read as a two's-complement `Int`. */
  function ToInt32(x: int): (r: int)
    ensures -TWO_31 <= r < TWO_31
    ensures (x - r) % TWO_32 == 0
    ensures -TWO_31 <= x < TWO_31 ==> r == x
  {
    var low := x % TWO_32;
    if low >= TWO_31 then low - TWO_32 else low
  }

  /** Appointments 2^32 apart share a notification id, so one reminder replaces the other's notification. */
  lemma NotificationIdsCollide()
    ensures ToInt32(1) == ToInt32(TWO_32 + 1) == 1
  {
  }

  /** `inputData.getLong(KEY_APPOINTMENT_ID, -1L)`. */
  function InputId(input: Option<int>): (id: int)
    ensures input.None? ==> id == -1
    ensures input.Some? ==> id == input.value
  {
    if input.Some? then input.value else -1
  }

  /** "de <service> " when the service row exists. */
  function ServicePart(serviceName: Option<string>): string {
    if serviceName.Some? then "de " + serviceName.value + " " else ""
  }

  /** "con <client> " when the client row exists. */
  function ClientPart(clientName: Option<string>): string {
    if clientName.Some? then "con " + clientName.value + " " else ""
  }

  /** "hoy <dd/MM/yyyy> a las <HH:mm>." */
  function WhenPart(at: LocalDateTime): string {
    "hoy " + DateText(at.day, at.month, at.year) + " a las " + ClockText(at.hour, at.minute) + "."
  }

  /**
    The notification text: "Turno ", then "de <service> " when the service row
    exists, then "con <client> " when the client row exists, then
    "hoy <dd/MM/yyyy> a las <HH:mm>.".
   */
  function ReminderText(serviceName: Option<string>, clientName: Option<string>, at: LocalDateTime): (r: string)
    ensures |r| == 6 + |ServicePart(serviceName)| + |ClientPart(clientName)| + |WhenPart(at)|
    ensures r[..6] == "Turno "
    ensures r[|r| - |WhenPart(at)|..] == WhenPart(at)
    ensures serviceName.Some? ==> r[6..6 + |ServicePart(serviceName)|] == "de " + serviceName.value + " "
    ensures clientName.Some? ==>
      r[6 + |ServicePart(serviceName)|..|r| - |WhenPart(at)|] == "con " + clientName.value + " "
    ensures serviceName.None? && clientName.None? ==> r == "Turno " + WhenPart(at)
  {
    Pieces("Turno ", ServicePart(serviceName), ClientPart(clientName), WhenPart(at));
    "Turno " + ServicePart(serviceName) + ClientPart(clientName) + WhenPart(at)
  }

  /** Where each of four concatenated pieces sits. */
  lemma Pieces(a: string, b: string, c: string, d: string)
    ensures var r := a + b + c + d;
      && |r| == |a| + |b| + |c| + |d|
      && r[..|a|] == a
      && r[|a|..|a| + |b|] == b
      && r[|a| + |b|..|a| + |b| + |c|] == c
      && r[|a| + |b| + |c|..] == d
  {
  }

  /** The name in an optional row, as a `?.name` lookup yields it. */
  function ClientName(c: Option<Client>): Option<string> {
    if c.Some? then Some(c.value.name) else None
  }

  function ServiceName(s: Option<Service>): Option<string> {
    if s.Some? then Some(s.value.name) else None
  }

  function Lookup<V>(m: map<int, V>, k: int): Option<V> {
    if k in m then Some(m[k]) else None
  }

  /**
    `doWork()`: always succeeds; posts nothing for a missing or non-positive id
    or an id with no stored appointment, and otherwise posts the reminder under
    the id truncated to `Int`.
   */
  method DoWork(input: Option<int>, db: Db, zone: Zone) returns (result: WorkResult, posted: Option<Notification>)
    ensures result == Success
    ensures posted.None? <==> InputId(input) <= 0 || InputId(input) !in db.appointments
    ensures posted.Some? ==>
      var ap := db.appointments[InputId(input)];
      posted.value == Notification(
        ToInt32(InputId(input)),
        TITLE,
        ReminderText(ServiceName(Lookup(db.services, ap.serviceId)), ClientName(Lookup(db.clients, ap.clientId)), zone(ap.startAt)))
  {
    var id := InputId(input);
    if id <= 0 {
      return Success, None;
    }
    if id !in db.appointments {
      return Success, None;
    }
    var ap := db.appointments[id];
    var client := Lookup(db.clients, ap.clientId);
    var service := Lookup(db.services, ap.serviceId);

    var dt := zone(ap.startAt);
    var hora := ClockText(dt.hour, dt.minute);
    var fecha := DateText(dt.day, dt.month, dt.year);

    var text := "Turno ";
    if service.Some? {
      text := text + ("de " + service.value.name + " ");
    }
    assert text == "Turno " + ServicePart(ServiceName(service));
    if client.Some? {
      text := text + ("con " + client.value.name + " ");
    }
    assert text == "Turno " + ServicePart(ServiceName(service)) + ClientPart(ClientName(client));
    text := text + ("hoy " + fecha + " a las " + hora + ".");
    assert text == "Turno " + ServicePart(ServiceName(service)) + ClientPart(ClientName(client)) + WhenPart(dt);

    posted := Some(Notification(ToInt32(id), TITLE, text));
    return Success, posted;
  }
}

=== FILE: service_repository.dfy ===
/**
  The service repository (data/ServiceRepository.kt). Unlike the client
  repository it stores names as given, without trimming. `update` does nothing
  for an unknown key; `setActive` and `delete` touch only the given row.
 */
module ServiceRepository {
  import opened Text
  import opened Entities
  import opened Store

  /**
    `getActive()`: the services offered for booking, by key. The name ordering
    of the query is not modelled.
   */
  function Active(services: map<int, Service>): (r: map<int, Service>)
    ensures forall k | k in r :: k in services && r[k] == services[k] && r[k].active
    ensures forall k | k in services && services[k].active :: k in r
  {
    map k | k in services && services[k].active :: services[k]
  }

  /** `add(name, minutes, price)`: inserts one active service. */
  method Add(db: Db, name: string, minutes: int, price: real, fault: Option<Fault>) returns (r: Result<()>)
    requires db.Valid()
    modifies db
    ensures db.Valid()
    ensures fault.Some? ==> r == Err(StoreFailure(fault.value)) && db.Unchanged()
    ensures fault.None? ==>
      && r == Ok(())
      && old(db.nextServiceId) !in old(db.services)
      && db.services == old(db.services)[old(db.nextServiceId) := Service(old(db.nextServiceId), name, minutes, price, true)]
      && db.OnlyServicesChanged()
  {
    if fault.Some? {
      return Err(StoreFailure(fault.value));
    }
    var _ := db.InsertService(Service(0, name, minutes, price, true));
    return Ok(());
  }

  /**
    `update(id, name, minutes, price)`: when service `id` exists, replaces its
    name, duration and price and keeps its key and active flag; otherwise does
    nothing.
   */
  method Update(db: Db, id: int, name: string, minutes: int, price: real, fault: Option<Fault>) returns (r: Result<()>)
    requires db.Valid()
    modifies db
    ensures db.Valid()
    ensures id !in old(db.services) ==> r == Ok(()) && db.Unchanged()
    ensures id in old(db.services) && fault.Some? ==> r == Err(StoreFailure(fault.value)) && db.Unchanged()
    ensures id in old(db.services) && fault.None? ==>
      && r == Ok(())
      && db.services == old(db.services)[id := Service(id, name, minutes, price, old(db.services)[id].active)]
      && db.nextServiceId == old(db.nextServiceId)
      && db.OnlyServicesChanged()
  {
    if id !in db.services {
      return Ok(());
    }
    var current := db.services[id];
    if fault.Some? {
      return Err(StoreFailure(fault.value));
    }
    db.UpdateService(current.(name := name, durationMinutes := minutes, price := price));
    return Ok(());
  }

  /** `setActive(id, active)`: changes only the active flag of service `id`. */
  method SetActive(db: Db, id: int, active: bool, fault: Option<Fault>) returns (r: Result<()>)
    requires db.Valid()
    modifies db
    ensures db.Valid()
    ensures fault.Some? ==> r == Err(StoreFailure(fault.value)) && db.Unchanged()
    ensures fault.None? && id in old(db.services) ==>
      r == Ok(()) && db.services == old(db.services)[id := old(db.services)[id].(active := active)]
      && db.nextServiceId == old(db.nextServiceId) && db.OnlyServicesChanged()
    ensures fault.None? && id !in old(db.services) ==> r == Ok(()) && db.Unchanged()
  {
    if fault.Some? {
      return Err(StoreFailure(fault.value));
    }
    db.SetServiceActive(id, active);
    return Ok(());
  }

  /** `delete(id)`: removes service `id` and no other. */
  method Delete(db: Db, id: int, fault: Option<Fault>) returns (r: Result<()>)
    requires db.Valid()
    modifies db
    ensures db.Valid()
    ensures fault.Some? ==> r == Err(StoreFailure(fault.value)) && db.Unchanged()
    ensures fault.None? ==> r == Ok(()) && db.services == old(db.services) - {id}
                            && db.nextServiceId == old(db.nextServiceId) && db.OnlyServicesChanged()
  {
    if fault.Some? {
      return Err(StoreFailure(fault.value));
    }
    db.DeleteService(id);
    return Ok(());
  }

  /** Deactivating a service takes it off the active list and leaves the rest of the list as it was. */
  lemma DeactivateRemovesFromActive(services: map<int, Service>, id: int)
    requires id in services
    ensures Active(services[id := services[id].(active := false)]) == Active(services) - {id}
  {
  }

  /** Reactivating a service puts it back on the active list. */
  lemma ReactivateRestoresActive(services: map<int, Service>, id: int)
    requires id in services
    ensures Active(services[id := services[id].(active := true)]) == Active(services)[id := services[id].(active := true)]
  {
  }
}

=== FILE: services_ui.dfy ===
/**
  The services screen's view model (ui/ServicesViewModel.kt): the list it shows
  is the active services, each action emits exactly one snackbar message, and a
  service that appointments still use is never deleted.
 */
module ServicesUi {
  import opened Text
  import opened Entities
  import opened AppointmentDao
  import opened Store
  import ServiceRepository

  const CREATED: string := "Servicio creado"
  const SAVED: string := "Cambios guardados"
  const DELETED: string := "Servicio eliminado"
  const IN_USE: string := "No se puede eliminar: hay turnos que usan este servicio"

  /** Every appointment names a stored service. */
  predicate ServicesResolve(t: Table, services: map<int, Service>) {
    forall k | k in t :: t[k].serviceId in services
  }

  /** Deleting a service no appointment uses keeps every appointment's service present. */
  lemma GuardedDeleteKeepsServicesResolved(t: Table, services: map<int, Service>, id: int)
    requires ServicesResolve(t, services) && CountByService(t, id) == 0
    ensures ServicesResolve(t, services - {id})
  {
    forall k | k in t
      ensures t[k].serviceId in services - {id}
    {
      assert t[k].serviceId != id;
    }
  }

  class ServicesViewModel {
    const db: Db
    /** The snackbar messages emitted so far, oldest first. */
    var messages: seq<string>

    predicate Valid()
      reads this, db
    {
      db.Valid()
    }

    constructor (db: Db)
      requires db.Valid()
      ensures Valid() && this.db == db && messages == []
    {
      this.db := db;
      messages := [];
    }

    /** `services`: the active services, keyed by id. */
    function Services(): (r: map<int, Service>)
      reads this, db
      ensures forall k | k in r :: k in db.services && r[k] == db.services[k] && r[k].active
      ensures forall k | k in db.services && db.services[k].active :: k in r
    {
      ServiceRepository.Active(db.services)
    }

    /** `add(name, minutes, price)`. */
    method Add(name: string, minutes: int, price: real, fault: Option<Fault>)
      requires Valid()
      modifies this, db
      ensures Valid()
      ensures fault.None? ==>
        && messages == old(messages) + [CREATED]
        && db.services == old(db.services)[old(db.nextServiceId) := Service(old(db.nextServiceId), name, minutes, price, true)]
        && Services() == old(Services())[old(db.nextServiceId) := Service(old(db.nextServiceId), name, minutes, price, true)]
        && db.OnlyServicesChanged()
      ensures fault.Some? ==>
        && messages == old(messages) + ["Error al crear: " + StoreFailure(fault.value).MessageOrUnknown()]
        && db.Unchanged()
    {
      var r := ServiceRepository.Add(db, name, minutes, price, fault);
      if r.Ok? {
        messages := messages + [CREATED];
      } else {
        messages := messages + ["Error al crear: " + r.error.MessageOrUnknown()];
      }
    }

    /** `update(id, name, minutes, price)`: reports success also when no service `id` exists. */
    method Update(id: int, name: string, minutes: int, price: real, fault: Option<Fault>)
      requires Valid()
      modifies this, db
      ensures Valid()
      ensures id !in old(db.services) ==> messages == old(messages) + [SAVED] && db.Unchanged()
      ensures id in old(db.services) && fault.None? ==>
        && messages == old(messages) + [SAVED]
        && db.services == old(db.services)[id := Service(id, name, minutes, price, old(db.services)[id].active)]
        && db.OnlyServicesChanged()
      ensures id in old(db.services) && fault.Some? ==>
        && messages == old(messages) + ["Error al editar: " + StoreFailure(fault.value).MessageOrUnknown()]
        && db.Unchanged()
    {
      var r := ServiceRepository.Update(db, id, name, minutes, price, fault);
      if r.Ok? {
        messages := messages + [SAVED];
      } else {
        messages := messages + ["Error al editar: " + r.error.MessageOrUnknown()];
      }
    }

    /** `delete(id)`: refuses a service that appointments use, otherwise deletes it. */
    method Delete(id: int, fault: Option<Fault>)
      requires Valid()
      modifies this, db
      ensures Valid()
      ensures CountByService(old(db.appointments), id) > 0 ==> messages == old(messages) + [IN_USE] && db.Unchanged()
      ensures CountByService(old(db.appointments), id) == 0 && fault.None? ==>
        && messages == old(messages) + [DELETED]
        && db.services == old(db.services) - {id}
        && db.OnlyServicesChanged()
      ensures CountByService(old(db.appointments), id) == 0 && fault.Some? ==>
        && messages == old(messages) + ["Error al eliminar: " + StoreFailure(fault.value).MessageOrUnknown()]
        && db.Unchanged()
      ensures ServicesResolve(old(db.appointments), old(db.services)) ==> ServicesResolve(db.appointments, db.services)
    {
      var inUse := CountByService(db.appointments, id) > 0;
      if inUse {
        messages := messages + [IN_USE];
        return;
      }
      ghost var before := db.appointments;
      ghost var servicesBefore := db.services;
      var r := ServiceRepository.Delete(db, id, fault);
      if r.Ok? {
        messages := messages + [DELETED];
        if ServicesResolve(before, servicesBefore) {
          GuardedDeleteKeepsServicesResolved(before, servicesBefore, id);
        }
      } else {
        messages := messages + ["Error al eliminar: " + r.error.MessageOrUnknown()];
      }
    }
  }
}

=== FILE: store.dfy ===
/**
  The application's database: the clients, services and appointments tables,
  each a map from primary key to row with the next key that `autoGenerate`
  hands out, and the DAO writes that change them in place. The appointment
  writes apply the table functions of `AppointmentDao`; the client and service
  writes are Room's `@Insert`, `@Update` (by primary key) and the
  `UPDATE`/`DELETE ... WHERE id = :id` queries.
 */
module Store {
  import opened Text
  import opened Entities
  import opened AppointmentDao

  class Db {
    var appointments: Table
    var nextAppointmentId: int
    var clients: map<int, Client>
    var nextClientId: int
    var services: map<int, Service>
    var nextServiceId: int

    /** Every row is stored under its own key, and every key is below the next one to be generated. */
    predicate Valid()
      reads this
    {
      && 1 <= nextAppointmentId && 1 <= nextClientId && 1 <= nextServiceId
      && Keyed(appointments)
      && (forall k | k in appointments :: k < nextAppointmentId)
      && (forall k | k in clients :: clients[k].id == k && 1 <= k < nextClientId)
      && (forall k | k in services :: services[k].id == k && 1 <= k < nextServiceId)
      && (forall k | k in appointments :: 1 <= k)
    }

    /** A freshly created, empty database. */
    constructor ()
      ensures Valid()
      ensures appointments == map[] && clients == map[] && services == map[]
      ensures nextAppointmentId == 1 && nextClientId == 1 && nextServiceId == 1
    {
      appointments := map[];
      nextAppointmentId := 1;
      clients := map[];
      nextClientId := 1;
      services := map[];
      nextServiceId := 1;
    }

    // -------------------------------------------------------------------------
    // appointments
    // -------------------------------------------------------------------------

    /** `insertReturnId(a)`: stores `a` under a newly generated key and returns that key. */
    method InsertAppointment(a: Appointment) returns (id: int)
      requires Valid()
      modifies this
      ensures Valid()
      ensures id == old(nextAppointmentId) && 1 <= id && id !in old(appointments)
      ensures appointments == Inserted(old(appointments), id, a)
      ensures nextAppointmentId == id + 1
      ensures OnlyAppointmentsChanged()
    {
      id := nextAppointmentId;
      appointments := Inserted(appointments, id, a);
      nextAppointmentId := nextAppointmentId + 1;
    }

    /** `update(id, clientId, serviceId, startAt, endAt, notes)`. */
    method UpdateAppointment(id: int, clientId: int, serviceId: int, startAt: int, endAt: int, notes: Option<string>)
      requires Valid()
      modifies this
      ensures Valid()
      ensures appointments == Updated(old(appointments), id, clientId, serviceId, startAt, endAt, notes)
      ensures nextAppointmentId == old(nextAppointmentId)
      ensures OnlyAppointmentsChanged()
    {
      appointments := Updated(appointments, id, clientId, serviceId, startAt, endAt, notes);
    }

    /** `updateStatus(id, newStatus)`. */
    method UpdateStatus(id: int, status: string)
      requires Valid()
      modifies this
      ensures Valid()
      ensures appointments == StatusUpdated(old(appointments), id, status)
      ensures nextAppointmentId == old(nextAppointmentId)
      ensures OnlyAppointmentsChanged()
    {
      appointments := StatusUpdated(appointments, id, status);
    }

    /** `delete(id)` on the appointments table. */
    method DeleteAppointment(id: int)
      requires Valid()
      modifies this
      ensures Valid()
      ensures appointments == Deleted(old(appointments), id)
      ensures nextAppointmentId == old(nextAppointmentId)
      ensures OnlyAppointmentsChanged()
    {
      appointments := Deleted(appointments, id);
    }

    // -------------------------------------------------------------------------
    // clients
    // -------------------------------------------------------------------------

    /** `ClientDao.insert(c)`: stores `c` under a newly generated key. */
    method InsertClient(c: Client) returns (id: int)
      requires Valid()
      modifies this
      ensures Valid()
      ensures id == old(nextClientId) && 1 <= id && id !in old(clients)
      ensures clients == old(clients)[id := c.(id := id)]
      ensures nextClientId == id + 1
      ensures OnlyClientsChanged()
    {
      id := nextClientId;
      clients := clients[id := c.(id := id)];
      nextClientId := nextClientId + 1;
    }

    /** `ClientDao.update(c)`: replaces the row whose key is `c.id`; nothing happens when there is none. */
    method UpdateClient(c: Client)
      requires Valid()
      modifies this
      ensures Valid()
      ensures c.id in old(clients) ==> clients == old(clients)[c.id := c]
      ensures c.id !in old(clients) ==> clients == old(clients)
      ensures nextClientId == old(nextClientId)
      ensures OnlyClientsChanged()
    {
      if c.id in clients {
        clients := clients[c.id := c];
      }
    }

    /** `ClientDao.delete(id)`. */
    method DeleteClient(id: int)
      requires Valid()
      modifies this
      ensures Valid()
      ensures clients == old(clients) - {id}
      ensures nextClientId == old(nextClientId)
      ensures OnlyClientsChanged()
    {
      clients := clients - {id};
    }

    // -------------------------------------------------------------------------
    // services
    // -------------------------------------------------------------------------

    /** `ServiceDao.insert(s)`: stores `s` under a newly generated key. */
    method InsertService(s: Service) returns (id: int)
      requires Valid()
      modifies this
      ensures Valid()
      ensures id == old(nextServiceId) && 1 <= id && id !in old(services)
      ensures services == old(services)[id := s.(id := id)]
      ensures nextServiceId == id + 1
      ensures OnlyServicesChanged()
    {
      id := nextServiceId;
      services := services[id := s.(id := id)];
      nextServiceId := nextServiceId + 1;
    }

    /** `ServiceDao.update(s)`: replaces the row whose key is `s.id`; nothing happens when there is none. */
    method UpdateService(s: Service)
      requires Valid()
      modifies this
      ensures Valid()
      ensures s.id in old(services) ==> services == old(services)[s.id := s]
      ensures s.id !in old(services) ==> services == old(services)
      ensures nextServiceId == old(nextServiceId)
      ensures OnlyServicesChanged()
    {
      if s.id in services {
        services := services[s.id := s];
      }
    }

    /** `ServiceDao.setActive(id, active)`: changes only the active flag of row `id`. */
    method SetServiceActive(id: int, active: bool)
      requires Valid()
      modifies this
      ensures Valid()
      ensures id in old(services) ==> services == old(services)[id := old(services)[id].(active := active)]
      ensures id !in old(services) ==> services == old(services)
      ensures nextServiceId == old(nextServiceId)
      ensures OnlyServicesChanged()
    {
      if id in services {
        services := services[id := services[id].(active := active)];
      }
    }

    /** `ServiceDao.delete(id)`. */
    method DeleteService(id: int)
      requires Valid()
      modifies this
      ensures Valid()
      ensures services == old(services) - {id}
      ensures nextServiceId == old(nextServiceId)
      ensures OnlyServicesChanged()
    {
      services := services - {id};
    }

    // -------------------------------------------------------------------------
    // frames
    // -------------------------------------------------------------------------

    /** Neither the clients nor the services table changed. */
    twostate predicate OnlyAppointmentsChanged()
      reads this
    {
      && clients == old(clients) && nextClientId == old(nextClientId)
      && services == old(services) && nextServiceId == old(nextServiceId)
    }

    /** Neither the appointments nor the services table changed. */
    twostate predicate OnlyClientsChanged()
      reads this
    {
      && appointments == old(appointments) && nextAppointmentId == old(nextAppointmentId)
      && services == old(services) && nextServiceId == old(nextServiceId)
    }

    /** Neither the appointments nor the clients table changed. */
    twostate predicate OnlyServicesChanged()
      reads this
    {
      && appointments == old(appointments) && nextAppointmentId == old(nextAppointmentId)
      && clients == old(clients) && nextClientId == old(nextClientId)
    }

    /** Nothing changed. */
    twostate predicate Unchanged()
      reads this
    {
      && appointments == old(appointments) && nextAppointmentId == old(nextAppointmentId)
      && clients == old(clients) && nextClientId == old(nextClientId)
      && services == old(services) && nextServiceId == old(nextServiceId)
    }
  }
}

=== FILE: text.dfy ===
/**
  Text helpers shared by the whole model: Kotlin's nullable values, `String.trim()`,
  `Long.toString()`, the `%0Nd` conversions of `String.format`, and the ASCII part of
  `String.lowercase()`.
 */
module Text {

  /** A Kotlin nullable value: `null` is `None`. */
  datatype Option<+T> = None | Some(value: T)

  /** Kotlin's `?.trim()`: `null` stays `null`, a string is trimmed. */
  function TrimOpt(s: Option<string>): (r: Option<string>)
    ensures r.None? <==> s.None?
    ensures s.Some? ==> r.value == Trim(s.value)
  {
    match s
    case None => None
    case Some(v) => Some(Trim(v))
  }

  // ---------------------------------------------------------------------------
  // trim()
  // ---------------------------------------------------------------------------

  /**
    Kotlin's `Char.isWhitespace()` on the JVM: `Character.isWhitespace` or
    `Character.isSpaceChar`, i.e. the ASCII controls TAB..CR and FS..US, every
    Unicode space separator (NO-BREAK SPACE included) and the line and paragraph
    separators.
   */
  predicate IsWhitespace(c: char) {
    || ('\t' <= c <= '\r')
    || ('\U{1C}' <= c <= ' ')
    || c == '\U{A0}' || c == '\U{1680}'
    || ('\U{2000}' <= c <= '\U{200A}')
    || c == '\U{2028}' || c == '\U{2029}' || c == '\U{202F}' || c == '\U{205F}' || c == '\U{3000}'
  }

  /** Number of whitespace characters at the start of `s`. */
  function LeadingWs(s: string): (n: nat)
    ensures n <= |s|
    ensures forall k | 0 <= k < n :: IsWhitespace(s[k])
    ensures n < |s| ==> !IsWhitespace(s[n])
  {
    if s == [] || !IsWhitespace(s[0]) then 0 else 1 + LeadingWs(s[1..])
  }

  /** Number of whitespace characters at the end of `s`. */
  function TrailingWs(s: string): (n: nat)
    ensures n <= |s|
    ensures forall k | |s| - n <= k < |s| :: IsWhitespace(s[k])
    ensures n < |s| ==> !IsWhitespace(s[|s| - 1 - n])
  {
    if s == [] || !IsWhitespace(s[|s| - 1]) then 0 else 1 + TrailingWs(s[..|s| - 1])
  }

  /**
    `String.trim()`: the longest slice of `s` that neither starts nor ends with
    whitespace, obtained by dropping only whitespace at both ends.
   */
  function Trim(s: string): (r: string)
    ensures |r| <= |s|
    ensures r == [] || (!IsWhitespace(r[0]) && !IsWhitespace(r[|r| - 1]))
    ensures LeadingWs(s) + |r| <= |s|
    ensures r == s[LeadingWs(s)..LeadingWs(s) + |r|]
    ensures forall k | 0 <= k < |s| && !(LeadingWs(s) <= k < LeadingWs(s) + |r|) :: IsWhitespace(s[k])
  {
    var lo := LeadingWs(s);
    var rest := s[lo..];
    var t := TrailingWs(rest);
    var hi := |s| - t;
    assert forall k | hi <= k < |s| :: s[k] == rest[k - lo];
    assert hi > lo ==> s[hi - 1] == rest[|rest| - 1 - t];
    s[lo..hi]
  }

  /** Trimming twice is trimming once. */
  lemma {:induction false} TrimIdempotent(s: string)
    ensures Trim(Trim(s)) == Trim(s)
  {
    var t := Trim(s);
    if t != [] {
      assert LeadingWs(t) == 0;
      assert TrailingWs(t) == 0;
    }
  }

  // ---------------------------------------------------------------------------
  // Decimal conversion: Int/Long.toString() and String.format("%0Nd")
  // ---------------------------------------------------------------------------

  predicate IsAsciiDigit(c: char) { '0' <= c <= '9' }

  function DigitChar(d: nat): (c: char)
    requires d < 10
    ensures IsAsciiDigit(c) && c as int - '0' as int == d
  {
    ('0' as int + d) as char
  }

  function DigitValue(c: char): nat
    requires IsAsciiDigit(c)
  {
    c as int - '0' as int
  }

  /** The decimal notation of a natural number, without leading zeros. */
  function NatToDecimal(n: nat): (r: string)
    ensures |r| >= 1
    ensures forall k | 0 <= k < |r| :: IsAsciiDigit(r[k])
    ensures r[0] == '0' ==> n == 0
    ensures n >= 10 ==> |r| >= 2
  {
    if n < 10 then [DigitChar(n)] else NatToDecimal(n / 10) + [DigitChar(n % 10)]
  }

  /** Reads a string of ASCII digits as a number; the reference to which decimal output is held. */
  function ParseDigits(s: string): nat
    requires forall k | 0 <= k < |s| :: IsAsciiDigit(s[k])
  {
    if s == [] then 0 else 10 * ParseDigits(s[..|s| - 1]) + DigitValue(s[|s| - 1])
  }

  /** Reading back the decimal notation of `n` gives `n`. */
  lemma {:induction false} NatToDecimalRoundTrip(n: nat)
    ensures ParseDigits(NatToDecimal(n)) == n
  {
    var r := NatToDecimal(n);
    if n >= 10 {
      NatToDecimalRoundTrip(n / 10);
      assert r[..|r| - 1] == NatToDecimal(n / 10);
    }
  }

  /** Distinct numbers have distinct decimal notations. */
  lemma NatToDecimalInjective(a: nat, b: nat)
    ensures NatToDecimal(a) == NatToDecimal(b) ==> a == b
  {
    NatToDecimalRoundTrip(a);
    NatToDecimalRoundTrip(b);
  }

  /** `Long.toString()`: a minus sign for negative numbers, then the decimal digits. */
  function IntToDecimal(n: int): (r: string)
    ensures |r| >= 1
    ensures n < 0 <==> r[0] == '-'
    ensures n >= 0 ==> r == NatToDecimal(n)
    ensures n < 0 ==> r[1..] == NatToDecimal(-n)
  {
    if n < 0 then "-" + NatToDecimal(-n) else NatToDecimal(n)
  }

  /** Distinct numbers have distinct `toString()` results. */
  lemma IntToDecimalInjective(a: int, b: int)
    ensures IntToDecimal(a) == IntToDecimal(b) ==> a == b
  {
    if IntToDecimal(a) == IntToDecimal(b) {
      if a < 0 {
        assert b < 0;
        NatToDecimalInjective(-a, -b);
      } else {
        assert b >= 0;
        NatToDecimalInjective(a, b);
      }
    }
  }

  function Zeros(n: nat): (r: string)
    ensures |r| == n && forall k | 0 <= k < n :: r[k] == '0'
  {
    if n == 0 then "" else Zeros(n - 1) + "0"
  }

  /**
    Java's `%0<width>d`: the sign (if negative), then zeros, then the digits, so
    that the whole is at least `width` characters long.
   */
  function ZeroPadded(n: int, width: nat): (r: string)
    ensures n >= 0 ==> |r| == if |NatToDecimal(n)| < width then width else |NatToDecimal(n)|
    ensures n >= 0 ==> forall k | 0 <= k < |r| :: IsAsciiDigit(r[k])
    ensures n < 0 ==> |r| >= 1 && r[0] == '-'
  {
    var digits := NatToDecimal(if n < 0 then -n else n);
    var sign := if n < 0 then "-" else "";
    var pad := if |sign| + |digits| < width then width - |sign| - |digits| else 0;
    sign + Zeros(pad) + digits
  }

  /** Leading zeros do not change the value that a digit string reads as. */
  lemma {:induction false} ParseDigitsLeadingZeros(z: nat, d: string)
    requires forall k | 0 <= k < |d| :: IsAsciiDigit(d[k])
    ensures forall k | 0 <= k < |Zeros(z) + d| :: IsAsciiDigit((Zeros(z) + d)[k])
    ensures ParseDigits(Zeros(z) + d) == ParseDigits(d)
  {
    if d == [] {
      assert Zeros(z) + d == Zeros(z);
      ParseZeros(z);
    } else {
      var s := Zeros(z) + d;
      assert s[..|s| - 1] == Zeros(z) + d[..|d| - 1];
      ParseDigitsLeadingZeros(z, d[..|d| - 1]);
    }
  }

  lemma {:induction false} ParseZeros(z: nat)
    ensures ParseDigits(Zeros(z)) == 0
  {
    if z > 0 {
      assert Zeros(z)[..z - 1] == Zeros(z - 1);
      ParseZeros(z - 1);
    }
  }

  /** `%0Nd` of a non-negative number reads back as that number. */
  lemma ZeroPaddedRoundTrip(n: nat, width: nat)
    ensures ParseDigits(ZeroPadded(n, width)) == n
  {
    var digits := NatToDecimal(n);
    var pad := if |digits| < width then width - |digits| else 0;
    assert ZeroPadded(n, width) == Zeros(pad) + digits;
    ParseDigitsLeadingZeros(pad, digits);
    NatToDecimalRoundTrip(n);
  }

  function Pow10(k: nat): (p: nat)
    ensures p >= 1
  {
    if k == 0 then 1 else 10 * Pow10(k - 1)
  }

  /** A number below `10^k` has at most `k` digits. */
  lemma {:induction false} DecimalLengthBound(n: nat, k: nat)
    requires 1 <= k && n < Pow10(k)
    ensures |NatToDecimal(n)| <= k
  {
    if n >= 10 {
      assert Pow10(1) == 10;
      assert n / 10 < Pow10(k - 1);
      DecimalLengthBound(n / 10, k - 1);
    }
  }

  /** `%0<width>d` of a number below `10^width` is exactly `width` digits. */
  lemma FixedWidth(n: nat, width: nat)
    requires 1 <= width && n < Pow10(width)
    ensures |ZeroPadded(n, width)| == width
  {
    DecimalLengthBound(n, width);
  }

  /** `"%02d:%02d".format(hour, minute)`. */
  function ClockText(hour: int, minute: int): string {
    ZeroPadded(hour, 2) + ":" + ZeroPadded(minute, 2)
  }

  /** For a valid time of day the clock text is `HH:mm`: five characters that read back as the hour and minute. */
  lemma ClockTextRoundTrip(hour: int, minute: int)
    requires 0 <= hour < 24 && 0 <= minute < 60
    ensures var r := ClockText(hour, minute);
      && |r| == 5 && r[2] == ':'
      && (forall k | 0 <= k < 5 && k != 2 :: IsAsciiDigit(r[k]))
      && ParseDigits(r[..2]) == hour && ParseDigits(r[3..]) == minute
  {
    assert Pow10(2) == 100;
    FixedWidth(hour, 2);
    FixedWidth(minute, 2);
    var r := ClockText(hour, minute);
    assert r[..2] == ZeroPadded(hour, 2);
    assert r[3..] == ZeroPadded(minute, 2);
    ZeroPaddedRoundTrip(hour, 2);
    ZeroPaddedRoundTrip(minute, 2);
  }

  /** `"%02d/%02d/%04d".format(day, month, year)`. */
  function DateText(day: int, month: int, year: int): string {
    ZeroPadded(day, 2) + "/" + ZeroPadded(month, 2) + "/" + ZeroPadded(year, 4)
  }

  /** For a date of years 0..9999 the date text is `dd/MM/yyyy` and reads back as the date. */
  lemma DateTextRoundTrip(day: int, month: int, year: int)
    requires 1 <= day <= 31 && 1 <= month <= 12 && 0 <= year <= 9999
    ensures var r := DateText(day, month, year);
      && |r| == 10 && r[2] == '/' && r[5] == '/'
      && ParseDigits(r[..2]) == day && ParseDigits(r[3..5]) == month && ParseDigits(r[6..]) == year
  {
    assert Pow10(2) == 100;
    assert Pow10(4) == 10000;
    FixedWidth(day, 2);
    FixedWidth(month, 2);
    FixedWidth(year, 4);
    var r := DateText(day, month, year);
    assert r[..2] == ZeroPadded(day, 2);
    assert r[3..5] == ZeroPadded(month, 2);
    assert r[6..] == ZeroPadded(year, 4);
    ZeroPaddedRoundTrip(day, 2);
    ZeroPaddedRoundTrip(month, 2);
    ZeroPaddedRoundTrip(year, 4);
  }

  // ---------------------------------------------------------------------------
  // lowercase()
  // ---------------------------------------------------------------------------

  function LowerChar(c: char): (r: char)
    ensures 'A' <= c <= 'Z' ==> r as int == c as int + 32
    ensures !('A' <= c <= 'Z') ==> r == c
  {
    if 'A' <= c <= 'Z' then (c as int + 32) as char else c
  }

  /** `String.lowercase()`, restricted to the ASCII letters (see README). */
  function Lowercase(s: string): (r: string)
    ensures |r| == |s|
    ensures forall k | 0 <= k < |s| :: r[k] == LowerChar(s[k])
  {
    seq(|s|, k requires 0 <= k < |s| => LowerChar(s[k]))
  }
}
